=== FILE: README.md ===
# Input layer of the log viewer, in Dafny

This project models the part of the log viewer that opens inputs for
indexing and reads them back block by block (`src/input.rs`), plus the
relaxed level parser (`src/level.rs`).

- **Chronological line decoder** (`BlockLines`). A block is a byte buffer
  plus a correction table, the chronology. The table has three parts:
  - a bitmap with one bit per line, in 64-line windows (one `u64` word each);
  - one reset point `(bytes, jumps)` per window;
  - the absolute start offsets (`jumps`) of the lines that are out of order.

  `next` is a pure step from the state `(current, byte, jump)` to a line and
  the next state. A panic of the source (an index or slice out of bounds) is
  the explicit outcome `Panic`, and `Decodable` says a whole iteration never
  meets it. `DecoderSafety.TableFits` is a condition on the table alone
  under which a fresh iteration never meets it. The newline scan that ends each line is `LineLen`. It is checked
  against `SplitLines`, an independent byte-by-byte split of a buffer into
  lines.
- **Blocks** (`Blocks`, `StableSort`). `into_blocks` gives positions
  `0..n`. `sorted` is a stable sort of positions by the blocks'
  `ts_min_max` pair, compared lexicographically. The model sorts by
  insertion, not by the standard library's merge sort. The contracts
  (permutation, ordering, stability per key) pin down one result, which is
  the one any stable sort returns.
- **Indexing strategy** (`IndexedInputs`):
  - a path whose extension is `gz` is refused;
  - a stream whose seek probe fails is indexed sequentially and replayed
    from the bytes recorded while indexing;
  - anything else is indexed directly by path.

  `Path::extension` is modelled on `/`-separated Unix paths.
- **`ConcatReader`** (`ConcatReader`). One stream over a sequence of
  inputs. Each input is given as the list of replies its successive `read`
  calls return.
- **Levels** (`Levels`). The derived order of `Level`, the `RelaxedLevel`
  wrapper, the alias table, and the alias scan of `parse_ref`. Aliases are
  compared ignoring ASCII case. The level-name parser it falls back to is
  a function parameter.

## Model

| member | source | states |
|---|---|---|
| BlockLines.New | src/input.rs:293-317 | A read error is passed on unchanged. Otherwise the decoder holds exactly the block's bytes and its table, expects `lines_valid + lines_invalid` lines, and starts at line 0, byte 0, jump 0. |
| BlockLines.Next | src/input.rs:323-351 | `next` answers `None` exactly when `current >= total`. A yielded line is a valid range of the shared buffer. The line counter goes up by one, the scan continues at the line's end, and buffer, table and total are unchanged. |
| BlockLines.LineExtent | src/input.rs:344-350 | A yielded line runs from its start up to and including the first newline at or after it, or to the end of the buffer when there is none. With an empty bitmap it starts at the scan offset and the jump cursor is untouched. |
| BlockLines.Lines | src/input.rs:353-360 | The number of lines an iteration yields equals `count`, which is `size_hint`'s exact bound `total - current`. Every line is a valid range of the same buffer. |
| BlockLines.Bytes | src/input.rs:375-385 | `bytes()` has length `len()`, and its byte `j` is the buffer's byte `offset() + j`. |
| LineSplit.LineLenSpec | src/input.rs:345 | The scan stops one past the first newline, with no newline before it; with no newline it takes the whole rest of the buffer. |
| LineSplit.SplitLinesHead | src/input.rs:344-347 | The byte-by-byte split of a buffer starts with exactly the line the decoder's scan measures, followed by the split of the remainder. |
| DecoderLemmas.ExhaustedAfterTotal | src/input.rs:324-348 | A decodable iteration yields exactly `total - current` lines, and `next` then answers `None`. |
| DecoderLemmas.RunStep | src/input.rs:323-351 | While lines are due, a decodable iteration can always take one more step, and `k + 1` steps are `k` steps followed by one. |
| DecoderLemmas.LineAt | src/input.rs:323-351 | Line `i` of an iteration is the line `next` yields from the state after `i` steps. |
| DecoderLemmas.SequentialDecodeIsSplit | src/input.rs:330-350 | With an empty bitmap, while the scan offset is in the buffer, the decoder never panics. Its lines are the newline split of the rest of the buffer, padded with empty lines when more lines are due than the buffer holds. |
| DecoderLemmas.SequentialRangesTile | src/input.rs:344-348 | With an empty bitmap the first line starts at the scan offset and each later line starts where the previous one ended. Once the scan reaches the buffer's end, every further line is an empty range at the end. |
| DecoderLemmas.FreshSequentialRoundTrip | src/input.rs:309-350 | A fresh decoder over an empty bitmap, expecting as many lines as the buffer holds, yields exactly the buffer's newline split, and joining the lines gives back the buffer. |
| DecoderLemmas.StepRule | src/input.rs:330-343 | Each step over a non-empty bitmap first resets both cursors from the window's reset point at a window start. A set bit then starts the line at `jumps[jump]` and advances `jump` by exactly one; a clear bit leaves both cursors alone. |
| DecoderLemmas.StepYields | src/input.rs:330-350 | Conversely, a step over a non-empty bitmap yields whenever the rule's lookups are in range and the line's start lies inside the buffer. The line starts where the rule says, and the jump cursor moves as the rule says. The three lookups are the window's reset point at a window start, the window word, and `jumps[jump]` for a set bit. |
| DecoderLemmas.ExceptionOverridesReset | src/input.rs:334-342 | At a window start a set bit overrides the reset offset: `"ab\n"` with offsets `[(100, 0)]`, bitmap `[1]` and jumps `[0]` yields the line `0..3`, though the reset offset lies past the buffer. |
| DecoderLemmas.TraceJumpCursor | src/input.rs:334-342 | For any cursor trace following that rule, after line `i` the jump cursor equals the window's `offsets[i / 64].jumps` plus the number of set bits up to and including `i`'s. |
| DecoderLemmas.TraceLineStart | src/input.rs:334-342 | In such a trace, a set bit starts line `i` at `jumps[ExceptionSlot(i)]`. A clear bit starts it at the window's `offsets.bytes` at a window start, and at the current scan offset otherwise. |
| DecoderLemmas.Traced | src/input.rs:323-351 | A fresh decodable iteration over a non-empty bitmap is a cursor trace that follows the rule. |
| DecoderLemmas.JumpCursorClosedForm | src/input.rs:330-342 | After line `i` of a fresh iteration, the jump cursor is the window's base plus the set bits of the window up to and including line `i`. |
| DecoderLemmas.LineStartRule | src/input.rs:330-347 | Every line start comes from the table alone: the exception slot's `jumps` entry for a set bit; the window's reset offset for a clear bit at a window start; otherwise the previous line's end. |
| DecoderLemmas.JumpsConsumedInOrder | src/input.rs:339-342 | Within a window, later exception lines read strictly later `jumps` slots, so no slot is read twice. |
| DecoderSafety.FitStep | src/input.rs:330-350 | When the table fits, a reachable state with lines due indexes nothing out of bounds: the window word, the reset point and the `jumps` slot exist, and the line starts inside the buffer. The next state is reachable again. |
| DecoderSafety.FittingTableDecodes | src/input.rs:309-351 | A fresh decoder over a fitting table never panics. It yields exactly `total` lines and then `None`. A table fits when its windows cover the lines, its reset offsets and `jumps` entries point into the buffer, and each window has `jumps` slots for all its exception lines. |
| Blocks.IntoLines | src/input.rs:260-278 | `into_lines` passes a read error on. Otherwise it gives a fresh decoder (line 0, byte 0, jump 0) holding exactly the bytes read, `size()` of them, and the block's table, whose `count` is `lines_valid + lines_invalid`. |
| Blocks.IntoLinesDecodes | src/input.rs:260-278 | A block whose table fits its size and line count is read back in full. Its decoder never panics and yields `lines_valid + lines_invalid` lines. |
| Blocks.IntoBlocksInOrder | src/input.rs:184-187 | Iterating `into_blocks` yields blocks `0, 1, …, n - 1` of the input, in order. |
| Blocks.Collect | src/input.rs:213-223 | Repeated `next` yields one block per remaining position, in order, and as many as `count` and `size_hint` report. |
| Blocks.Nth | src/input.rs:230-232 | `nth(n)` yields the block at the `n`-th remaining position and leaves the positions after it, or yields `None` and leaves nothing. |
| Blocks.Sorted | src/input.rs:202-207 | `sorted` keeps exactly the same positions (as a multiset), orders them by `ts_min_max`, and keeps positions with equal keys in their previous order. |
| Blocks.SortedAllBlocks | src/input.rs:202-207 | Sorting all blocks of an input yields each block exactly once, ordered by timestamp range, with blocks of equal range in file order. |
| StableSort.SortByKey | src/input.rs:205 | The stable sort by key returns a permutation of its input that is ordered by key and, for every key, lists that key's positions in their original order. |
| StableSort.SortedPutsSmallerFirst | src/input.rs:205 | In the sorted positions, a block with a strictly smaller key comes before one with a larger key. |
| IndexedInputs.GzipExtensionIffSuffix | src/input.rs:150 | The extension test succeeds exactly for file names of the form `<non-empty stem>.gz`. |
| IndexedInputs.HiddenGzHasNoExtension | src/input.rs:150 | A hidden file named `.gz` has no extension, so it is not refused. |
| IndexedInputs.UpperCaseGz | src/input.rs:150 | `app.GZ` has extension `GZ`; the comparison is case-sensitive, so it is not refused. |
| IndexedInputs.ChooseStrategy | src/input.rs:149-163 | A `gz` path fails with `UnsupportedFormatForIndexing(path, "gzip")` whether or not the stream can seek. Otherwise the sequential strategy is chosen exactly when the seek probe fails. |
| IndexedInputs.OpenStream | src/input.rs:149-171 | A `gz` path fails without consulting either indexer. A non-seekable stream is indexed sequentially. A seekable one gets the direct indexer's index, or its error, and keeps reading its own file. |
| IndexedInputs.OpenSequential | src/input.rs:173-182 | An error of the streaming indexer or of the replay buffer's `result()` is passed on; the model takes both as the one `recorded` error. Otherwise the input keeps its reference and its index, and replays exactly the bytes recorded during indexing. |
| IndexedInputs.IndexInput | src/input.rs:94-102 | Standard input is always indexed sequentially. A file's open failure is reported as `failed to open <description>: <message>`. Otherwise the file goes through `open_stream`. |
| IndexedInputs.IndexInputOutcome | src/input.rs:94-182 | For every input, the result replays recorded bytes exactly when the input is standard input or cannot seek, and otherwise reads its own file with the direct index. Every failure is an open failure, the gzip refusal, or an indexer error, passed on as is. |
| ConcatReader.Read | src/input.rs:405-430 | `read` returns 0 bytes exactly when no input remains with data or an error, and then nothing is left. Every other outcome strictly reduces the work left. With no current input, a source's open error is returned as is and that source is dropped. A read fault of the current input comes back as `failed to read <description>: <message>`, and the input stays current. Non-empty data is returned as is. |
| ConcatReader.ReadSkipsExhausted | src/input.rs:406-429 | A current input at its end, and then every opened source at its end, is dropped before anything is returned. `read` then behaves as if only the later sources were left. |
| ConcatReader.OpenErrorAfterExhausted | src/input.rs:408-414 | A source that failed to open is returned as is, even after exhausted inputs were dropped. Reading then continues with the sources after it. |
| ConcatReader.ReadFaultAfterExhausted | src/input.rs:407-424 | A read fault of the next input, after exhausted inputs were dropped, comes back with that input's description, and that input becomes the current one. |
| ConcatReader.DataAfterExhausted | src/input.rs:407-427 | The next input's first non-empty data, after exhausted inputs were dropped, is returned as is, and that input becomes the current one. |
| ConcatReader.ReadTakesPrefix | src/input.rs:405-430 | On fault-free inputs one `read` returns a prefix of the remaining content, and the rest of the content stays to be read. |
| ConcatReader.ReadToEndIsConcatenation | src/input.rs:405-430 | Reading fault-free inputs until 0 bytes yields every input's bytes, input after input, in order. Inputs that read 0 bytes are skipped. |
| Levels.LevelOrder | src/level.rs:16-23 | Error < Warning < Info < Debug, and the derived order is a strict total order. |
| Levels.RelaxedLevelTransparent | src/level.rs:30-42 | `into()` and `deref()` return the wrapped level unchanged, and the wrapper's derived order is the level order. |
| Levels.AnyMatches | src/level.rs:66 | The `any` over a level's aliases is true exactly when the input equals one of them ignoring ASCII case. |
| Levels.FindAlias | src/level.rs:65-69 | The scan finds nothing exactly when no entry has a matching alias. A found level is the level of an entry with a matching alias. |
| Levels.ParseRef | src/level.rs:59-74 | An alias match decides the result. Otherwise the level-name parser's level, or its error, is the result. |
| Levels.AliasLookup | src/level.rs:78-85 | The table maps `err`/`e` to Error, `warn`/`wrn`/`w` to Warning, `inf`/`i` to Info and `dbg`/`d` to Debug. The scan finds a level exactly when the input matches one of that level's aliases. |
| Levels.AliasesDisjoint | src/level.rs:79-84 | No input, in any case, matches aliases of two different levels, so the scan order does not matter. |
| Levels.AliasAccepted | src/level.rs:65-68 | Every alias of the table, in any ASCII case, parses to its level, whatever the level-name parser would say. |
| Levels.NonAliasFallsThrough | src/level.rs:71-73 | Input matching no alias gets exactly the level-name parser's answer, a level or an error. |
| Levels.AliasExamples | src/level.rs:66 | `WARN` parses to Warning and `Dbg` to Debug. |
| Levels.AliasCaseInsensitive | src/level.rs:66 | Inputs equal up to ASCII case find the same alias. |

## Left out

- File opening, stdin, seeking, `read_fill` and the gzip decoder are I/O. They enter as parameters:
  - the bytes read for a block, or the read error;
  - whether the seek probe succeeded;
  - whether `File::open` failed, and with which message.
- The indexer, the tee reader and the replay buffer are collaborators whose code is not part of this model. The direct indexer's result and the streaming pass's result (index and recorded bytes) are parameters.
- IndexedInputs.OpenSequential: the two failure points of `open_sequential`, the streaming indexer and the replay buffer's `result()`, enter as the one error of the `recorded` parameter, so the model does not say which of them failed.
- `Mutex`, `Arc` and the buffer pool govern sharing and lifetime, not values. A block's buffer is a plain sequence.
- Errors.IoError: an `io::Error` keeps only its message. The error kind that the annotated read and open errors carry over is dropped, and the model's reading to the end stops at the first error, with no retry of interrupted reads.
- The colouring of the input description is left out. The description is `<stdin>` or `file '<path>'`.
- The clap `EnumValueParser` fallback of `parse_ref` is an external library. It is the parameter `byName`.
- `Blocks::advance_by` exists only behind the `iter_advance_by` feature; it forwards to the positions like `nth`.
- `Input::open_stream` (gzip decompression for reading) and `InputHolder::open` are stream plumbing with no decision beyond the extension test that `IndexedInputs.Extension` models.
- BlockLines.New: the `u64` sum `lines_valid + lines_invalid` must not exceed `u64::MAX` (a precondition), and `usize` is taken to be 64 bits wide, so the `try_into` conversions never fail and `TryFromInt` never arises.
- BlockLines.Next: a panic is the outcome `Panic`. The cursor updates the source makes before panicking are not kept, since the iterator is unusable after a panic.
- ConcatReader.Read: a stream's reply is any byte sequence. The length of the caller's buffer is not modelled, so a zero-length buffer, which makes a live input look exhausted, is not covered.
- DecoderSafety.TableFits: the table condition is sufficient for a panic-free decode, not necessary. A window that starts with an exception line never starts a line at its reset byte offset, though `offsets[n]` must still be in range. Unused `jumps` entries may point anywhere without harm.
- DecoderLemmas.LineStartRule: over a non-empty bitmap the lines are characterised one start at a time. No round trip to a naive split is stated, because out-of-order lines do not tile the buffer.
- `Path::extension` is modelled for Unix `/`-separated paths of Unicode characters. Windows prefixes and non-UTF-8 names are not covered.

=== FILE: basics.dfy ===
/** Small value types shared by every module of the model. */
module Basics {

  /** One byte of a block buffer (`u8`). */
  newtype byte = x: int | 0 <= x < 256

  /** The line feed byte `b'\n'` that ends a line. */
  const NL: byte := 10

  /** `u64::MAX`; also `usize::MAX`, as the model assumes a 64-bit target. */
  const U64_MAX: nat := 0xFFFF_FFFF_FFFF_FFFF

  datatype Option<+T> = None | Some(value: T)

  datatype Result<+T, +E> = Ok(value: T) | Err(error: E)

  /** Concatenation of a sequence of byte strings. */
  function Concat(xs: seq<seq<byte>>): (r: seq<byte>)
  {
    if xs == [] then [] else xs[0] + Concat(xs[1..])
  }
}

=== FILE: block_lines.dfy ===
/**
  The chronological line decoder of one block: a state machine over the line
  counter, the scan byte offset and the index into the `jumps` table, which
  yields the block's lines in recording order.
*/
module BlockLines {
  import opened Basics
  import opened Errors
  import opened SourceIndex
  import opened LineSplit

  /** Lines per window: the bit width of one bitmap word. */
  const K: nat := 64

  /** Whether bit `m` of the window word `w` is set (`w & (1 << m) != 0`). */
  predicate Bit(w: bv64, m: nat)
    requires m < K
  {
    w & (1 << m) != 0
  }

  /** Number of set bits of `w` below position `m`. */
  function Rank(w: bv64, m: nat): (r: nat)
    requires m <= K
    ensures r <= m
  {
    if m == 0 then 0 else Rank(w, m - 1) + (if Bit(w, m - 1) then 1 else 0)
  }

  // ---

  /** A line: a byte range of the shared block buffer. */
  datatype BlockLine = BlockLine(buf: seq<byte>, start: nat, end: nat)

  predicate ValidLine(l: BlockLine)
  {
    l.start <= l.end <= |l.buf|
  }

  /** The line's bytes, `buf[range]`. */
  function Bytes(l: BlockLine): (r: seq<byte>)
    requires ValidLine(l)
    ensures |r| == Len(l)
    ensures forall j :: 0 <= j < |r| ==> r[j] == l.buf[Offset(l) + j]
  {
    l.buf[l.start..l.end]
  }

  function Offset(l: BlockLine): (r: nat)
  {
    l.start
  }

  function Len(l: BlockLine): (r: nat)
    requires l.start <= l.end
  {
    l.end - l.start
  }

  // ---

  /**
    Iteration state: the block buffer, its correction table, the number of
    lines to produce, and the three cursors.
  */
  datatype Decoder = Decoder(buf: seq<byte>, table: Chronology, total: nat, current: nat, byte: nat, jump: nat)

  /** The two cursors the correction table may move. */
  datatype Cursor = Cursor(byte: nat, jump: nat)

  /**
    Decoder over a materialized block. `fill` is the outcome of reading the
    block's `size` bytes at its offset; its error is passed on unchanged.
    The line total is `lines_valid + lines_invalid`; the `u64` sum must not
    overflow, and on a 64-bit target its conversion to `usize` cannot fail.
  */
  function New(block: SourceBlock, fill: Result<seq<byte>, Error>): (r: Result<Decoder, Error>)
    requires fill.Ok? ==> |fill.value| == block.size
    requires block.stat.linesValid + block.stat.linesInvalid <= U64_MAX
    ensures fill.Err? ==> r == Err(fill.error)
    ensures fill.Ok? ==> r.Ok?
    ensures r.Ok? ==>
      && r.value.buf == fill.value
      && r.value.table == block.chronology
      && r.value.total == block.stat.linesValid + block.stat.linesInvalid
      && r.value.current == 0 && r.value.byte == 0 && r.value.jump == 0
  {
    match fill
    case Err(e) => Err(e)
    case Ok(buf) => Ok(Decoder(buf, block.chronology, block.stat.linesValid + block.stat.linesInvalid, 0, 0, 0))
  }

  /**
    The table lookups of line `current` do not index out of bounds: the
    window word, the window's reset point at a window start, and the jump
    entry when the line's bit is set.
  */
  predicate CanLocate(t: Chronology, current: nat, jump: nat)
  {
    |t.bitmap| == 0 ||
    var n := current / K;
    var m := current % K;
    && n < |t.bitmap|
    && (m == 0 ==> n < |t.offsets|)
    && (Bit(t.bitmap[n], m) ==> (if m == 0 then t.offsets[n].jumps else jump) < |t.jumps|)
  }

  /** Where line `current` starts and the jump cursor after it, per the correction table. */
  function Locate(t: Chronology, current: nat, c: Cursor): (r: Cursor)
    requires CanLocate(t, current, c.jump)
  {
    if |t.bitmap| == 0 then c
    else
      var n := current / K;
      var m := current % K;
      var base := if m == 0 then Cursor(t.offsets[n].bytes, t.offsets[n].jumps) else c;
      if Bit(t.bitmap[n], m) then Cursor(t.jumps[base.jump], base.jump + 1) else base
  }

  /** What one call of `next` does. */
  datatype Step =
    | Yield(line: BlockLine, next: Decoder)  // `Some(line)`, and the state after it
    | Done                                   // `None`: all `total` lines were produced
    | Panic                                  // an index or slice out of bounds

  /**
    `Iterator::next`: the line starts where the table says, runs up to and
    including the first newline at or after its start (or to the end of the
    buffer), and the scan continues right after it.
  */
  function Next(d: Decoder): (r: Step)
    ensures r.Done? <==> d.current >= d.total
    ensures r.Yield? ==> ValidLine(r.line) && r.line.buf == d.buf
    ensures r.Yield? ==> r.next.current == d.current + 1 && r.next.byte == r.line.end
    ensures r.Yield? ==> r.next.buf == d.buf && r.next.table == d.table && r.next.total == d.total
  {
    if d.current >= d.total then Done
    else if !CanLocate(d.table, d.current, d.jump) then Panic
    else
      var c := Locate(d.table, d.current, Cursor(d.byte, d.jump));
      if c.byte > |d.buf| then Panic
      else
        var l := LineLen(d.buf[c.byte..]);
        Yield(BlockLine(d.buf, c.byte, c.byte + l), d.(current := d.current + 1, byte := c.byte + l, jump := c.jump))
  }

  /**
    The extent of every produced line: it runs from its start up to and
    including the first newline at or after the start, or to the end of the
    buffer when there is none. With an empty bitmap it starts at the scan
    offset and leaves the jump cursor alone, and `next` cannot panic while
    the scan offset is inside the buffer.
  */
  lemma LineExtent(d: Decoder)
    requires Next(d).Yield?
    ensures var line := Next(d).line;
      && (forall j :: line.start <= j < line.end - 1 ==> d.buf[j] != NL)
      && (NL in d.buf[line.start..] ==> line.start < line.end && d.buf[line.end - 1] == NL)
      && (NL !in d.buf[line.start..] ==> line.end == |d.buf|)
    ensures |d.table.bitmap| == 0 ==> Next(d).line.start == d.byte && Next(d).next.jump == d.jump
  {
    var line := Next(d).line;
    var s := d.buf[line.start..];
    LineLenSpec(s);
    assert forall j :: line.start <= j < |d.buf| ==> d.buf[j] == s[j - line.start];
  }

  /** `Iterator::size_hint`: the exact number of lines still due. */
  function SizeHint(d: Decoder): (r: (nat, Option<nat>))
    requires d.current <= d.total
  {
    (d.total - d.current, Some(d.total - d.current))
  }

  /** `Iterator::count`, answered from the size hint without iterating. */
  function Count(d: Decoder): (r: nat)
    requires d.current <= d.total
  {
    SizeHint(d).0
  }

  /** Iterating from `d` to the end never panics. */
  predicate Decodable(d: Decoder)
    decreases d.total - d.current
  {
    && d.current <= d.total
    && match Next(d)
       case Yield(_, next) => Decodable(next)
       case Done => true
       case Panic => false
  }

  /** Every line still to come, in order (`collect`). */
  function Lines(d: Decoder): (r: seq<BlockLine>)
    requires Decodable(d)
    ensures |r| == Count(d)
    ensures forall i :: 0 <= i < |r| ==> ValidLine(r[i]) && r[i].buf == d.buf
    decreases d.total - d.current
  {
    match Next(d)
    case Yield(line, next) => [line] + Lines(next)
    case _ => []
  }

  /** The state after `k` more lines, or the state where iteration stopped. */
  function Run(d: Decoder, k: nat): (r: Decoder)
    decreases k
  {
    if k == 0 then d
    else
      match Next(d)
      case Yield(_, next) => Run(next, k - 1)
      case _ => d
  }
}

=== FILE: blocks.dfy ===
/**
  Blocks of an indexed input: handles to one block each, and the lazy
  sequence of them in file order or sorted by timestamp range.
*/
module Blocks {
  import opened Basics
  import opened Errors
  import opened SourceIndex
  import opened IndexedInputs
  import opened StableSort
  import BlockLines
  import DecoderSafety

  /** A handle to block `index` of an indexed input; holds no bytes. */
  datatype Block = Block(input: IndexedInput, index: nat)

  predicate Exists(b: Block)
  {
    b.index < |b.input.index.blocks|
  }

  function SourceBlockOf(b: Block): (r: SourceBlock)
    requires Exists(b)
  {
    b.input.index.blocks[b.index]
  }

  function Offset(b: Block): (r: nat)
    requires Exists(b)
  {
    SourceBlockOf(b).offset
  }

  function Size(b: Block): (r: nat)
    requires Exists(b)
  {
    SourceBlockOf(b).size
  }

  function LinesValid(b: Block): (r: nat)
    requires Exists(b)
  {
    SourceBlockOf(b).stat.linesValid
  }

  /**
    `into_lines`: a fresh decoder over the block, where `fill` is the outcome
    of reading the block's bytes from the input's store.
  */
  function IntoLines(b: Block, fill: Result<seq<byte>, Error>): (r: Result<BlockLines.Decoder, Error>)
    requires Exists(b)
    requires fill.Ok? ==> |fill.value| == Size(b)
    requires SourceBlockOf(b).stat.linesValid + SourceBlockOf(b).stat.linesInvalid <= U64_MAX
    ensures fill.Err? ==> r == Err(fill.error)
    ensures fill.Ok? ==> r.Ok? && |r.value.buf| == Size(b) && r.value.table == SourceBlockOf(b).chronology
    ensures fill.Ok? ==> r.value.buf == fill.value && r.value.byte == 0 && r.value.jump == 0
    ensures r.Ok? ==> r.value.current == 0 && BlockLines.Count(r.value) == LinesValid(b) + SourceBlockOf(b).stat.linesInvalid
  {
    BlockLines.New(SourceBlockOf(b), fill)
  }

  /**
    A block whose correction table fits its size and line count is read
    back in full: its lines never index out of bounds, and they number
    `lines_valid + lines_invalid`.
  */
  lemma IntoLinesDecodes(b: Block, fill: Result<seq<byte>, Error>)
    requires Exists(b)
    requires fill.Ok? ==> |fill.value| == Size(b)
    requires SourceBlockOf(b).stat.linesValid + SourceBlockOf(b).stat.linesInvalid <= U64_MAX
    requires DecoderSafety.TableFits(SourceBlockOf(b).chronology, Size(b), LinesValid(b) + SourceBlockOf(b).stat.linesInvalid)
    ensures var r := IntoLines(b, fill);
      r.Ok? ==> BlockLines.Decodable(r.value) && |BlockLines.Lines(r.value)| == LinesValid(b) + SourceBlockOf(b).stat.linesInvalid
  {
    if fill.Ok? {
      var sb := SourceBlockOf(b);
      var total := sb.stat.linesValid + sb.stat.linesInvalid;
      assert IntoLines(b, fill) == Ok(BlockLines.Decoder(fill.value, sb.chronology, total, 0, 0, 0));
      DecoderSafety.FittingTableDecodes(fill.value, sb.chronology, total);
    }
  }

  // ---

  /** The blocks still to come: block positions of one shared input. */
  datatype Blocks = Blocks(input: IndexedInput, indexes: seq<nat>)

  /** Positions `0..n`. */
  function Range(n: nat): (r: seq<nat>)
    ensures |r| == n && forall i :: 0 <= i < n ==> r[i] == i
  {
    seq(n, i requires 0 <= i < n => i)
  }

  /** `into_blocks`: every block of the input, in file order. */
  function IntoBlocks(input: IndexedInput): (r: Blocks)
    ensures r.input == input && r.indexes == Range(|input.index.blocks|)
  {
    Blocks(input, Range(|input.index.blocks|))
  }

  /** `Iterator::next`. */
  function Next(bs: Blocks): (r: Option<(Block, Blocks)>)
    ensures r.None? <==> bs.indexes == []
    ensures r.Some? ==> r.value.0 == Block(bs.input, bs.indexes[0]) && r.value.1 == Blocks(bs.input, bs.indexes[1..])
  {
    if bs.indexes == [] then None else Some((Block(bs.input, bs.indexes[0]), Blocks(bs.input, bs.indexes[1..])))
  }

  /** `Iterator::size_hint`: exact for a range and for a collected vector. */
  function SizeHint(bs: Blocks): (r: (nat, Option<nat>))
  {
    (|bs.indexes|, Some(|bs.indexes|))
  }

  /** `Iterator::count`, taken from the positions without creating blocks. */
  function Count(bs: Blocks): (r: nat)
  {
    |bs.indexes|
  }

  /** Every block still to come, by repeated `next`. */
  function Collect(bs: Blocks): (r: seq<Block>)
    ensures |r| == Count(bs) && |r| == SizeHint(bs).0
    ensures forall i :: 0 <= i < |r| ==> r[i] == Block(bs.input, bs.indexes[i])
    decreases |bs.indexes|
  {
    match Next(bs)
    case None => []
    case Some((b, rest)) => [b] + Collect(rest)
  }

  /** `Iterator::nth`: skips `n` blocks, then takes the next one. */
  function Nth(bs: Blocks, n: nat): (r: (Option<Block>, Blocks))
    ensures n < |bs.indexes| ==> r.0 == Some(Block(bs.input, bs.indexes[n])) && r.1.indexes == bs.indexes[n + 1..]
    ensures n >= |bs.indexes| ==> r.0 == None && r.1.indexes == []
    ensures r.1.input == bs.input
    decreases n
  {
    match Next(bs)
    case None => (None, bs)
    case Some((b, rest)) => if n == 0 then (Some(b), rest) else Nth(rest, n - 1)
  }

  /** The key every block is sorted by, per position. */
  function Keys(input: IndexedInput): (r: seq<TimestampRange>)
    ensures |r| == |input.index.blocks|
    ensures forall i :: 0 <= i < |r| ==> r[i] == input.index.blocks[i].stat.tsMinMax
  {
    seq(|input.index.blocks|, i requires 0 <= i < |input.index.blocks| => input.index.blocks[i].stat.tsMinMax)
  }

  /**
    `sorted`: the remaining positions, collected and stably sorted by the
    blocks' `ts_min_max`. Every position must name a block.
  */
  function Sorted(bs: Blocks): (r: Blocks)
    requires InRange(bs.indexes, Keys(bs.input))
    ensures r.input == bs.input
    ensures InRange(r.indexes, Keys(bs.input))
    ensures multiset(r.indexes) == multiset(bs.indexes)
    ensures SortedBy(r.indexes, Keys(bs.input))
    ensures forall k :: Filter(r.indexes, Keys(bs.input), k) == Filter(bs.indexes, Keys(bs.input), k)
  {
    Blocks(bs.input, SortByKey(bs.indexes, Keys(bs.input)))
  }

  /** Iterating `into_blocks` yields blocks `0, 1, …, n - 1` in order. */
  lemma IntoBlocksInOrder(input: IndexedInput)
    ensures |Collect(IntoBlocks(input))| == |input.index.blocks|
    ensures forall i :: 0 <= i < |input.index.blocks| ==> Collect(IntoBlocks(input))[i] == Block(input, i)
  {
  }

  /** Sorting all blocks of an input keeps each block exactly once. */
  lemma SortedBlocksOnce(input: IndexedInput)
    ensures var r := Sorted(IntoBlocks(input)).indexes;
      && |r| == |input.index.blocks|
      && (forall i :: 0 <= i < |input.index.blocks| ==> multiset(r)[i] == 1)
  {
    var n := |input.index.blocks|;
    var r, s := Sorted(IntoBlocks(input)).indexes, Range(n);
    var counts: multiset<nat> := multiset(r);
    assert |r| == n by {
      assert |counts| == |multiset(s)|;
    }
    forall i: nat | i < n
      ensures counts[i] == 1
    {
      RangeOnce(n, i);
    }
  }

  /** Sorting all blocks of an input keeps blocks with equal ranges in file order. */
  lemma SortedBlocksStable(input: IndexedInput)
    ensures var r := Sorted(IntoBlocks(input)).indexes;
      forall i, j :: 0 <= i < j < |r| && Keys(input)[r[i]] == Keys(input)[r[j]] ==> r[i] < r[j]
  {
    var s, r, keys := Range(|input.index.blocks|), Sorted(IntoBlocks(input)).indexes, Keys(input);
    forall i, j | 0 <= i < j < |r| && keys[r[i]] == keys[r[j]]
      ensures r[i] < r[j]
    {
      StableAmongEqual(s, r, keys, i, j);
    }
  }

  /**
    Sorting all blocks of an input yields each block exactly once, ordered by
    timestamp range, blocks with equal ranges in file order.
  */
  lemma SortedAllBlocks(input: IndexedInput)
    ensures InRange(IntoBlocks(input).indexes, Keys(input))
    ensures var r := Sorted(IntoBlocks(input)).indexes;
      && |r| == |input.index.blocks|
      && (forall i :: 0 <= i < |input.index.blocks| ==> multiset(r)[i] == 1)
      && (forall i, j :: 0 <= i < j < |r| ==> KeyLe(input.index.blocks[r[i]].stat.tsMinMax, input.index.blocks[r[j]].stat.tsMinMax))
      && (forall i, j :: 0 <= i < j < |r| && input.index.blocks[r[i]].stat.tsMinMax == input.index.blocks[r[j]].stat.tsMinMax ==> r[i] < r[j])
  {
    SortedBlocksOnce(input);
    SortedBlocksStable(input);
  }

  /** Each position occurs exactly once in `0..n`. */
  lemma {:induction false} RangeOnce(n: nat, i: nat)
    requires i < n
    ensures multiset(Range(n))[i] == 1
  {
    if n - 1 == i {
      assert Range(n) == Range(n - 1) + [n - 1];
      assert i !in Range(n - 1);
    } else {
      RangeOnce(n - 1, i);
      assert Range(n) == Range(n - 1) + [n - 1];
    }
  }

  /**
    Two positions of equal key keep the order they had in an increasing
    input, when the output keeps the per-key order of the input.
  */
  lemma StableAmongEqual(s: seq<nat>, r: seq<nat>, keys: seq<TimestampRange>, i: nat, j: nat)
    requires InRange(s, keys) && InRange(r, keys)
    requires forall a, b :: 0 <= a < b < |s| ==> s[a] < s[b]
    requires forall k :: Filter(r, keys, k) == Filter(s, keys, k)
    requires i < j < |r| && keys[r[i]] == keys[r[j]]
    ensures r[i] < r[j]
  {
    var k := keys[r[i]];
    FilterOrder(r, keys, k, i, j);
    var f := Filter(r, keys, k);
    var p, q :| 0 <= p < q < |f| && f[p] == r[i] && f[q] == r[j];
    FilterIncreasing(s, keys, k);
  }

  /** Two elements of key `k` appear in the filter in the same order. */
  lemma {:induction false} FilterOrder(s: seq<nat>, keys: seq<TimestampRange>, k: TimestampRange, i: nat, j: nat)
    requires InRange(s, keys) && i < j < |s| && keys[s[i]] == k && keys[s[j]] == k
    ensures exists p, q :: 0 <= p < q < |Filter(s, keys, k)| && Filter(s, keys, k)[p] == s[i] && Filter(s, keys, k)[q] == s[j]
  {
    var t := s[1..];
    var ft := Filter(t, keys, k);
    if i == 0 {
      assert Filter(s, keys, k) == [s[0]] + ft;
      FilterHas(t, keys, k, j - 1);
      var q :| 0 <= q < |ft| && ft[q] == t[j - 1];
      assert Filter(s, keys, k)[0] == s[i] && Filter(s, keys, k)[q + 1] == s[j];
    } else {
      FilterOrder(t, keys, k, i - 1, j - 1);
      var p, q :| 0 <= p < q < |ft| && ft[p] == t[i - 1] && ft[q] == t[j - 1];
      var off := if keys[s[0]] == k then 1 else 0;
      assert Filter(s, keys, k)[p + off] == s[i] && Filter(s, keys, k)[q + off] == s[j];
    }
  }

  /** An element of key `k` appears in the filter. */
  lemma {:induction false} FilterHas(s: seq<nat>, keys: seq<TimestampRange>, k: TimestampRange, j: nat)
    requires InRange(s, keys) && j < |s| && keys[s[j]] == k
    ensures exists q :: 0 <= q < |Filter(s, keys, k)| && Filter(s, keys, k)[q] == s[j]
  {
    if j == 0 {
      assert Filter(s, keys, k)[0] == s[0];
    } else {
      FilterHas(s[1..], keys, k, j - 1);
      var ft := Filter(s[1..], keys, k);
      var q :| 0 <= q < |ft| && ft[q] == s[1..][j - 1];
      var off := if keys[s[0]] == k then 1 else 0;
      assert Filter(s, keys, k)[q + off] == s[j];
    }
  }

  /** Filtering an increasing sequence gives an increasing sequence. */
  lemma {:induction false} FilterIncreasing(s: seq<nat>, keys: seq<TimestampRange>, k: TimestampRange)
    requires InRange(s, keys)
    requires forall a, b :: 0 <= a < b < |s| ==> s[a] < s[b]
    ensures forall a, b :: 0 <= a < b < |Filter(s, keys, k)| ==> Filter(s, keys, k)[a] < Filter(s, keys, k)[b]
    ensures forall a :: 0 <= a < |Filter(s, keys, k)| ==> Filter(s, keys, k)[a] in s
  {
    if s != [] {
      FilterIncreasing(s[1..], keys, k);
      var ft := Filter(s[1..], keys, k);
      assert forall a :: 0 <= a < |ft| ==> ft[a] in s[1..];
      assert forall a :: 0 <= a < |ft| ==> s[0] < ft[a];
    }
  }
}

=== FILE: concat_reader.dfy ===
/**
  `ConcatReader`: one forward-only stream over a sequence of inputs, read
  one after the other. The inputs and their read results are values here:
  each input lists what its successive `read` calls return.
*/
module ConcatReader {
  import opened Basics
  import opened Errors

  /** What one `read` call of a stream returns. */
  datatype ReadResult = Data(bytes: seq<byte>) | Fault(cause: IoError)

  /** An opened input and the replies of its successive `read` calls; once they are used up it reads 0 bytes. */
  datatype Input = Input(reference: InputReference, replies: seq<ReadResult>)

  /** The inputs not yet opened (each may have failed to open) and the one being read. */
  datatype Concat = Concat(sources: seq<Result<Input, IoError>>, item: Option<Input>)

  function New(sources: seq<Result<Input, IoError>>): (r: Concat)
  {
    Concat(sources, None)
  }

  /** The next read of `input` returns 0 bytes. */
  predicate AtEof(input: Input)
  {
    input.replies == [] || input.replies[0] == Data([])
  }

  /** Nothing is left to read: no source fails to open and every one is at its end. */
  predicate Exhausted(c: Concat)
  {
    && (c.item.None? || AtEof(c.item.value))
    && forall i :: 0 <= i < |c.sources| ==> c.sources[i].Ok? && AtEof(c.sources[i].value)
  }

  /** Reads and sources left, as an upper bound on the calls that can still return data or an error. */
  function Work(c: Concat): (r: nat)
  {
    SourcesWork(c.sources) + Weight(c.item)
  }

  function SourcesWork(sources: seq<Result<Input, IoError>>): (r: nat)
  {
    if sources == [] then 0
    else 1 + (if sources[0].Ok? then |sources[0].value.replies| else 0) + SourcesWork(sources[1..])
  }

  /** Reads left in the current input, plus one for dropping it. */
  function Weight(item: Option<Input>): (r: nat)
  {
    if item.Some? then 1 + |item.value.replies| else 0
  }

  /**
    `read`: opens the next input when none is current, returns the first
    non-empty read, and drops an input that replies 0 bytes. It returns 0
    bytes only when every input is used up; a failure to open is returned
    as is, a read failure with the input's description.
  */
  function Read(c: Concat): (r: (Result<seq<byte>, IoError>, Concat))
    ensures r.0 == Ok([]) <==> Exhausted(c)
    ensures r.0 == Ok([]) ==> r.1 == Concat([], None)
    ensures r.0 != Ok([]) ==> Work(r.1) < Work(c)
    ensures c.item.None? && c.sources != [] && c.sources[0].Err? ==>
      r == (Err(c.sources[0].error), Concat(c.sources[1..], None))
    ensures c.item.Some? && c.item.value.replies != [] && c.item.value.replies[0].Fault? ==>
      var input := c.item.value;
      r == (Err(IoError("failed to read " + Describe(input.reference) + ": " + input.replies[0].cause.message)),
            Concat(c.sources, Some(input.(replies := input.replies[1..]))))
    ensures c.item.Some? && c.item.value.replies != [] && c.item.value.replies[0].Data? && c.item.value.replies[0].bytes != [] ==>
      var input := c.item.value;
      r == (Ok(input.replies[0].bytes), Concat(c.sources, Some(input.(replies := input.replies[1..]))))
    decreases |c.sources|, Weight(c.item)
  {
    match c.item
    case None =>
      if c.sources == [] then (Ok([]), c)
      else (
        match c.sources[0]
        case Err(e) => (Err(e), Concat(c.sources[1..], None))
        case Ok(input) =>
          var r := Read(Concat(c.sources[1..], Some(input)));
          assert Exhausted(c) <==> Exhausted(Concat(c.sources[1..], Some(input))) by {
            assert forall i :: 1 <= i < |c.sources| ==> c.sources[i] == c.sources[1..][i - 1];
          }
          r)
    case Some(input) =>
      if input.replies == [] then Read(Concat(c.sources, None))
      else (
        var rest := Concat(c.sources, Some(input.(replies := input.replies[1..])));
        match input.replies[0]
        case Fault(e) => (Err(IoError("failed to read " + Describe(input.reference) + ": " + e.message)), rest)
        case Data(bytes) =>
          if |bytes| != 0 then (Ok(bytes), rest) else Read(Concat(c.sources, None)))
  }

  /**
    `read` drops a current input that reads 0 bytes and then every opened
    source that reads 0 bytes: with the current input absent or at its end
    and the first `j` sources opened and at their end, it reads as if only
    the sources from `j` on were left.
  */
  lemma {:induction false} ReadSkipsExhausted(c: Concat, j: nat)
    requires c.item.None? || AtEof(c.item.value)
    requires j <= |c.sources|
    requires forall i :: 0 <= i < j ==> c.sources[i].Ok? && AtEof(c.sources[i].value)
    ensures Read(c) == Read(Concat(c.sources[j..], None))
    decreases j, Weight(c.item)
  {
    if c.item.Some? {
      ReadSkipsExhausted(Concat(c.sources, None), j);
    } else if j == 0 {
      assert c.sources[j..] == c.sources;
    } else {
      var c' := Concat(c.sources[1..], Some(c.sources[0].value));
      assert forall i :: 0 <= i < j - 1 ==> c'.sources[i] == c.sources[i + 1];
      ReadSkipsExhausted(c', j - 1);
      assert c'.sources[j - 1..] == c.sources[j..];
    }
  }

  /**
    A source that failed to open is returned as is, even after exhausted
    inputs were dropped, and reading goes on with the sources after it.
  */
  lemma OpenErrorAfterExhausted(c: Concat, j: nat)
    requires c.item.None? || AtEof(c.item.value)
    requires j < |c.sources| && c.sources[j].Err?
    requires forall i :: 0 <= i < j ==> c.sources[i].Ok? && AtEof(c.sources[i].value)
    ensures Read(c) == (Err(c.sources[j].error), Concat(c.sources[j + 1..], None))
  {
    ReadSkipsExhausted(c, j);
    assert c.sources[j..][1..] == c.sources[j + 1..];
  }

  /**
    A read failure of the next input, after exhausted inputs were dropped,
    comes back with that input's description, and the input stays current.
  */
  lemma ReadFaultAfterExhausted(c: Concat, j: nat)
    requires c.item.None? || AtEof(c.item.value)
    requires j < |c.sources| && c.sources[j].Ok?
    requires c.sources[j].value.replies != [] && c.sources[j].value.replies[0].Fault?
    requires forall i :: 0 <= i < j ==> c.sources[i].Ok? && AtEof(c.sources[i].value)
    ensures var input := c.sources[j].value;
      Read(c) == (Err(IoError("failed to read " + Describe(input.reference) + ": " + input.replies[0].cause.message)),
                  Concat(c.sources[j + 1..], Some(input.(replies := input.replies[1..]))))
  {
    ReadSkipsExhausted(c, j);
    assert c.sources[j..][1..] == c.sources[j + 1..];
  }

  /**
    The next input's first non-empty data, after exhausted inputs were
    dropped, is returned as is, and that input becomes the current one.
  */
  lemma DataAfterExhausted(c: Concat, j: nat)
    requires c.item.None? || AtEof(c.item.value)
    requires j < |c.sources| && c.sources[j].Ok?
    requires c.sources[j].value.replies != [] && c.sources[j].value.replies[0].Data?
    requires c.sources[j].value.replies[0].bytes != []
    requires forall i :: 0 <= i < j ==> c.sources[i].Ok? && AtEof(c.sources[i].value)
    ensures var input := c.sources[j].value;
      Read(c) == (Ok(input.replies[0].bytes), Concat(c.sources[j + 1..], Some(input.(replies := input.replies[1..]))))
  {
    ReadSkipsExhausted(c, j);
    assert c.sources[j..][1..] == c.sources[j + 1..];
  }

  /** Reading until 0 bytes or the first error, whichever comes first. */
  function ReadToEnd(c: Concat): (r: Result<seq<byte>, IoError>)
    decreases Work(c)
  {
    var (r, c') := Read(c);
    match r
    case Err(e) => Err(e)
    case Ok(bytes) => if bytes == [] then Ok([]) else
      match ReadToEnd(c')
      case Err(e) => Err(e)
      case Ok(more) => Ok(bytes + more)
  }

  // --- what a fault-free concatenation reads

  /** No input fails to open or to read. */
  predicate Clean(c: Concat)
  {
    && (c.item.Some? ==> NoFault(c.item.value.replies))
    && forall i :: 0 <= i < |c.sources| ==> c.sources[i].Ok? && NoFault(c.sources[i].value.replies)
  }

  predicate NoFault(replies: seq<ReadResult>)
  {
    forall i :: 0 <= i < |replies| ==> replies[i].Data?
  }

  /** The bytes an input yields: its replies up to the first that returns 0 bytes. */
  function InputBytes(replies: seq<ReadResult>): (r: seq<byte>)
    requires NoFault(replies)
  {
    if replies == [] || replies[0].bytes == [] then [] else replies[0].bytes + InputBytes(replies[1..])
  }

  /** The bytes of the current input followed by those of every later input, in order. */
  function Content(c: Concat): (r: seq<byte>)
    requires Clean(c)
  {
    (if c.item.Some? then InputBytes(c.item.value.replies) else []) + SourcesBytes(c.sources)
  }

  function SourcesBytes(sources: seq<Result<Input, IoError>>): (r: seq<byte>)
    requires forall i :: 0 <= i < |sources| ==> sources[i].Ok? && NoFault(sources[i].value.replies)
  {
    if sources == [] then [] else InputBytes(sources[0].value.replies) + SourcesBytes(sources[1..])
  }

  /** One read of a fault-free concatenation returns a prefix of its content and keeps the rest. */
  lemma {:induction false} ReadTakesPrefix(c: Concat)
    requires Clean(c)
    ensures Read(c).0.Ok?
    ensures Clean(Read(c).1)
    ensures Content(c) == Read(c).0.value + Content(Read(c).1)
    decreases |c.sources|, Weight(c.item)
  {
    match c.item
    case None =>
      if c.sources != [] {
        var input := c.sources[0].value;
        var c' := Concat(c.sources[1..], Some(input));
        assert Clean(c') by {
          assert forall i :: 1 <= i < |c.sources| ==> c.sources[i] == c.sources[1..][i - 1];
        }
        ReadTakesPrefix(c');
      }
    case Some(input) =>
      var c' := Concat(c.sources, None);
      if input.replies == [] || input.replies[0].bytes == [] {
        ReadTakesPrefix(c');
      } else {
        var rest := Concat(c.sources, Some(input.(replies := input.replies[1..])));
        assert Content(c) == input.replies[0].bytes + Content(rest);
      }
  }

  /**
    Reading a fault-free concatenation to the end yields every input's
    bytes, in the order of the inputs.
  */
  lemma {:induction false} ReadToEndIsConcatenation(c: Concat)
    requires Clean(c)
    ensures ReadToEnd(c) == Ok(Content(c))
    decreases Work(c)
  {
    ReadTakesPrefix(c);
    var (r, c') := Read(c);
    if r.value != [] {
      ReadToEndIsConcatenation(c');
    } else {
      assert Exhausted(c);
      ExhaustedIsEmpty(c);
    }
  }

  /** A used-up concatenation has no content left. */
  lemma ExhaustedIsEmpty(c: Concat)
    requires Clean(c) && Exhausted(c)
    ensures Content(c) == []
  {
    assert c.item.Some? ==> InputBytes(c.item.value.replies) == [];
    ExhaustedSourcesEmpty(c.sources);
  }

  lemma {:induction false} ExhaustedSourcesEmpty(sources: seq<Result<Input, IoError>>)
    requires forall i :: 0 <= i < |sources| ==> sources[i].Ok? && NoFault(sources[i].value.replies) && AtEof(sources[i].value)
    ensures SourcesBytes(sources) == []
  {
    if sources != [] {
      ExhaustedSourcesEmpty(sources[1..]);
    }
  }
}

=== FILE: decoder_lemmas.dfy ===
/**
  Properties of the chronological line decoder over whole iterations: the
  number of lines, the sequential case against a plain newline split, and a
  closed form of every line start in terms of the correction table.
*/
module DecoderLemmas {
  import opened Basics
  import opened SourceIndex
  import opened LineSplit
  import opened BlockLines

  /** The bytes of each line. */
  function Texts(ls: seq<BlockLine>): (r: seq<seq<byte>>)
    requires forall i :: 0 <= i < |ls| ==> ValidLine(ls[i])
    ensures |r| == |ls|
    ensures forall i :: 0 <= i < |ls| ==> r[i] == Bytes(ls[i])
  {
    seq(|ls|, i requires 0 <= i < |ls| => Bytes(ls[i]))
  }

  lemma TextsCons(l: BlockLine, ls: seq<BlockLine>)
    requires ValidLine(l) && forall i :: 0 <= i < |ls| ==> ValidLine(ls[i])
    ensures Texts([l] + ls) == [Bytes(l)] + Texts(ls)
  {
    assert forall i :: 1 <= i <= |ls| ==> ([l] + ls)[i] == ls[i - 1];
  }

  /** The first `n` entries of `xs`, continued with empty lines when `xs` is shorter. */
  function Fit(xs: seq<seq<byte>>, n: nat): (r: seq<seq<byte>>)
    ensures |r| == n
    ensures forall i :: 0 <= i < n ==> r[i] == if i < |xs| then xs[i] else []
  {
    if n == 0 then []
    else if xs == [] then [[]] + Fit([], n - 1)
    else [xs[0]] + Fit(xs[1..], n - 1)
  }

  /** After `k` steps of a decodable state: still decodable, `k` lines further, nothing else changed. */
  lemma {:induction false} RunFacts(d: Decoder, k: nat)
    requires Decodable(d) && k <= d.total - d.current
    ensures var e := Run(d, k);
      && Decodable(e) && e.current == d.current + k
      && e.buf == d.buf && e.table == d.table && e.total == d.total
    decreases k
  {
    if k > 0 {
      var step := Next(d);
      assert step.Yield?;
      assert Run(d, k) == Run(step.next, k - 1);
      RunFacts(step.next, k - 1);
    }
  }

  /** Taking `k + 1` steps is taking `k` steps and then one more. */
  lemma {:induction false} RunStep(d: Decoder, k: nat)
    requires Decodable(d) && k < d.total - d.current
    ensures Next(Run(d, k)).Yield?
    ensures Run(d, k + 1) == Next(Run(d, k)).next
    decreases k
  {
    if k > 0 {
      RunStep(Next(d).next, k - 1);
    } else {
      assert Next(d).Yield?;
    }
  }

  /** Line `i` of an iteration is the line produced from the state after `i` steps. */
  lemma {:induction false} LineAt(d: Decoder, i: nat)
    requires Decodable(d) && i < d.total - d.current
    ensures Next(Run(d, i)).Yield?
    ensures Lines(d)[i] == Next(Run(d, i)).line
    decreases i
  {
    RunStep(d, i);
    if i > 0 {
      LineAt(Next(d).next, i - 1);
    }
  }

  /**
    An iteration yields exactly `total - current` lines, after which `next`
    answers `None`.
  */
  lemma ExhaustedAfterTotal(d: Decoder)
    requires Decodable(d)
    ensures |Lines(d)| == d.total - d.current
    ensures Next(Run(d, d.total - d.current)).Done?
  {
    RunFacts(d, d.total - d.current);
  }

  // --- empty bitmap: a plain sequential scan

  /** Fitting the split of `s` to `n + 1` lines takes its first line and fits the rest to `n`. */
  lemma FitSplitStep(s: seq<byte>, n: nat)
    ensures Fit(SplitLines(s), n + 1) == [s[..LineLen(s)]] + Fit(SplitLines(s[LineLen(s)..]), n)
  {
    if s != [] {
      SplitLinesHead(s);
    } else {
      assert s[..0] == [] && s[0..] == s;
    }
  }

  /** A state that can step, and whose successor decodes, decodes. */
  lemma DecodableStep(d: Decoder)
    requires Next(d).Yield? && Decodable(Next(d).next)
    ensures Decodable(d)
    ensures Lines(d) == [Next(d).line] + Lines(Next(d).next)
  {
  }

  /** One step of the sequential scan: the line runs from the scan offset to the end of its line. */
  lemma SequentialStep(d: Decoder)
    requires |d.table.bitmap| == 0 && d.byte <= |d.buf| && d.current < d.total
    ensures Next(d).Yield?
    ensures Next(d).line == BlockLine(d.buf, d.byte, d.byte + LineLen(d.buf[d.byte..]))
    ensures Next(d).next == d.(current := d.current + 1, byte := d.byte + LineLen(d.buf[d.byte..]))
  {
  }

  /** Putting the first line of `buf[b..]` in front of the lines of the rest puts it in front of the split. */
  lemma TextsSplitStep(buf: seq<byte>, b: nat, line: BlockLine, rest: seq<BlockLine>, n: nat)
    requires b <= |buf| && line == BlockLine(buf, b, b + LineLen(buf[b..]))
    requires forall i :: 0 <= i < |rest| ==> ValidLine(rest[i])
    requires Texts(rest) == Fit(SplitLines(buf[b + LineLen(buf[b..])..]), n)
    ensures Texts([line] + rest) == Fit(SplitLines(buf[b..]), n + 1)
  {
    var s := buf[b..];
    var l := LineLen(s);
    calc {
      Texts([line] + rest);
      == { TextsCons(line, rest); }
      [Bytes(line)] + Texts(rest);
      == { assert Bytes(line) == s[..l]; assert buf[b + l..] == s[l..]; }
      [s[..l]] + Fit(SplitLines(s[l..]), n);
      == { FitSplitStep(s, n); }
      Fit(SplitLines(s), n + 1);
    }
  }

  /** The inductive step of `SequentialDecodeIsSplit`, for the step `d` to `d'` yielding `line`. */
  lemma SequentialSplitStep(d: Decoder, line: BlockLine, d': Decoder)
    requires |d.table.bitmap| == 0 && d.byte <= |d.buf| && d.current < d.total
    requires Next(d) == Yield(line, d') && Decodable(d')
    requires Texts(Lines(d')) == Fit(SplitLines(d.buf[d'.byte..]), d.total - d.current - 1)
    ensures Decodable(d)
    ensures Texts(Lines(d)) == Fit(SplitLines(d.buf[d.byte..]), d.total - d.current)
  {
    var l := LineLen(d.buf[d.byte..]);
    assert line == BlockLine(d.buf, d.byte, d.byte + l) && d'.byte == d.byte + l by { SequentialStep(d); }
    assert Decodable(d) && Lines(d) == [line] + Lines(d') by { DecodableStep(d); }
    TextsSplitStep(d.buf, d.byte, line, Lines(d'), d.total - d.current - 1);
  }

  /**
    With an empty bitmap the lines are the newline split of the rest of the
    buffer, padded with empty lines when more lines are due than the buffer
    holds.
  */
  lemma {:induction false} SequentialDecodeIsSplit(d: Decoder)
    requires |d.table.bitmap| == 0 && d.byte <= |d.buf| && d.current <= d.total
    ensures Decodable(d)
    ensures Texts(Lines(d)) == Fit(SplitLines(d.buf[d.byte..]), d.total - d.current)
    decreases d.total - d.current
  {
    if d.current < d.total {
      SequentialStep(d);
      var line, d' := Next(d).line, Next(d).next;
      SequentialDecodeIsSplit(d');
      SequentialSplitStep(d, line, d');
    }
  }

  /**
    With an empty bitmap the lines tile the buffer: the first starts at the
    scan offset, each next one starts where the previous one ended, and once
    the scan reaches the end of the buffer every further line is empty.
  */
  lemma {:induction false} SequentialRangesTile(d: Decoder)
    requires |d.table.bitmap| == 0 && d.byte <= |d.buf| && d.current <= d.total
    ensures Decodable(d)
    ensures |Lines(d)| > 0 ==> Lines(d)[0].start == d.byte
    ensures forall i :: 0 <= i < |Lines(d)| - 1 ==> Lines(d)[i + 1].start == Lines(d)[i].end
    ensures d.byte == |d.buf| ==> forall i :: 0 <= i < |Lines(d)| ==> Lines(d)[i].start == Lines(d)[i].end == |d.buf|
    decreases d.total - d.current
  {
    SequentialDecodeIsSplit(d);
    if d.current < d.total {
      var line, d' := Next(d).line, Next(d).next;
      SequentialRangesTile(d');
      var ls := Lines(d);
      assert ls == [line] + Lines(d');
      if d.byte == |d.buf| {
        assert d.buf[d.byte..] == [];
      }
    }
  }

  /**
    A fresh decoder over a block with an empty bitmap and exactly as many
    lines as the buffer holds yields the buffer's newline split, and the
    lines put back together give the buffer.
  */
  lemma FreshSequentialRoundTrip(buf: seq<byte>, table: Chronology)
    requires |table.bitmap| == 0
    ensures var d := Decoder(buf, table, |SplitLines(buf)|, 0, 0, 0);
      && Decodable(d)
      && Texts(Lines(d)) == SplitLines(buf)
      && Concat(Texts(Lines(d))) == buf
  {
    var d := Decoder(buf, table, |SplitLines(buf)|, 0, 0, 0);
    SequentialDecodeIsSplit(d);
    assert buf[0..] == buf;
    SplitLinesConcat(buf);
  }

  // --- non-empty bitmap: windows of K lines

  /** The `jumps` slot read by line `i` when its bit is set: its window's base plus the set bits before it. */
  function ExceptionSlot(t: Chronology, i: nat): (r: nat)
    requires i / K < |t.bitmap| && i / K < |t.offsets|
  {
    t.offsets[i / K].jumps + Rank(t.bitmap[i / K], i % K)
  }

  /**
    The bitmap rule for line `i` over a non-empty bitmap, from the cursors
    before it to its start and the jump cursor after it: at a window start
    the cursors are first reset from the window's entry in `offsets`; then a
    set bit makes the line start at the next unread `jumps` entry and
    advances the jump cursor by one, while a clear bit leaves both as they are.
  */
  predicate Rule(t: Chronology, i: nat, before: Cursor, start: nat, after: Cursor)
  {
    var n, m := i / K, i % K;
    && n < |t.bitmap|
    && (m == 0 ==> n < |t.offsets|)
    && var base := if m == 0 then Cursor(t.offsets[n].bytes, t.offsets[n].jumps) else before;
       if Bit(t.bitmap[n], m) then
         base.jump < |t.jumps| && start == t.jumps[base.jump] && after.jump == base.jump + 1
       else
         start == base.byte && after.jump == base.jump
  }

  /** Cursors before each line and the lines' starts, following the rule from line 0 on. */
  predicate Follows(t: Chronology, cs: seq<Cursor>, starts: seq<nat>)
  {
    |cs| == |starts| + 1 && forall i :: 0 <= i < |starts| ==> Rule(t, i, cs[i], starts[i], cs[i + 1])
  }

  /** Every step over a non-empty bitmap obeys the rule. */
  lemma StepRule(e: Decoder)
    requires Next(e).Yield? && |e.table.bitmap| != 0
    ensures Rule(e.table, e.current, Cursor(e.byte, e.jump), Next(e).line.start, Cursor(Next(e).next.byte, Next(e).next.jump))
  {
  }

  /**
    Conversely, a step over a non-empty bitmap whose lookups the rule can
    make, and whose start lies inside the buffer, yields the line at that
    start and leaves the jump cursor where the rule says: `next` panics on
    nothing else.
  */
  lemma StepYields(d: Decoder, start: nat, after: Cursor)
    requires d.current < d.total && |d.table.bitmap| != 0
    requires Rule(d.table, d.current, Cursor(d.byte, d.jump), start, after) && start <= |d.buf|
    ensures Next(d).Yield? && Next(d).line.start == start && Next(d).next.jump == after.jump
  {
  }

  /**
    An exception line at a window start reads the window's reset point but
    starts where its `jumps` entry says, so a reset offset past the buffer
    does no harm: `"ab\n"` with bitmap `[1]`, offsets `[(100, 0)]` and jumps
    `[0]` yields its one line.
  */
  lemma ExceptionOverridesReset()
    ensures var d := Decoder([97, 98, NL], Chronology([1], [Offsets(100, 0)], [0]), 1, 0, 0, 0);
      Next(d).Yield? && Next(d).line == BlockLine([97, 98, NL], 0, 3)
  {
    var d := Decoder([97, 98, NL], Chronology([1], [Offsets(100, 0)], [0]), 1, 0, 0, 0);
    assert Bit(1, 0);
    StepYields(d, 0, Cursor(3, 1));
    LineLenSpec(d.buf);
  }

  lemma WindowArith(i: nat)
    requires i % K != 0
    ensures (i - 1) / K == i / K && (i - 1) % K == i % K - 1
  {
  }

  /**
    After line `i` of a trace the jump cursor stands at the base of `i`'s
    window plus the number of set bits up to and including `i`'s.
  */
  lemma {:induction false} TraceJumpCursor(t: Chronology, cs: seq<Cursor>, starts: seq<nat>, i: nat)
    requires Follows(t, cs, starts) && i < |starts|
    ensures i / K < |t.bitmap| && i / K < |t.offsets|
    ensures cs[i + 1].jump == t.offsets[i / K].jumps + Rank(t.bitmap[i / K], i % K + 1)
    decreases i
  {
    assert Rule(t, i, cs[i], starts[i], cs[i + 1]);
    if i % K != 0 {
      WindowArith(i);
      TraceJumpCursor(t, cs, starts, i - 1);
    }
  }

  /** Line `i` of a trace starts at its exception slot, its window's reset offset, or where the cursor stood. */
  lemma TraceLineStart(t: Chronology, cs: seq<Cursor>, starts: seq<nat>, i: nat)
    requires Follows(t, cs, starts) && i < |starts|
    ensures i / K < |t.bitmap| && i / K < |t.offsets|
    ensures Bit(t.bitmap[i / K], i % K) ==> ExceptionSlot(t, i) < |t.jumps| && starts[i] == t.jumps[ExceptionSlot(t, i)]
    ensures !Bit(t.bitmap[i / K], i % K) && i % K == 0 ==> starts[i] == t.offsets[i / K].bytes
    ensures !Bit(t.bitmap[i / K], i % K) && i % K != 0 ==> starts[i] == cs[i].byte
  {
    assert Rule(t, i, cs[i], starts[i], cs[i + 1]);
    if i % K != 0 {
      WindowArith(i);
      TraceJumpCursor(t, cs, starts, i - 1);
      assert cs[i].jump == ExceptionSlot(t, i);
    } else {
      assert ExceptionSlot(t, i) == t.offsets[i / K].jumps;
    }
  }

  /** The cursors before each line of an iteration (and after the last). */
  function Cursors(d: Decoder): (r: seq<Cursor>)
    requires d.current <= d.total
    ensures |r| == d.total - d.current + 1
    ensures forall i :: 0 <= i < |r| ==> r[i] == Cursor(Run(d, i).byte, Run(d, i).jump)
  {
    seq(d.total - d.current + 1, i requires 0 <= i => Cursor(Run(d, i).byte, Run(d, i).jump))
  }

  /** Where each line of an iteration starts. */
  function Starts(d: Decoder): (r: seq<nat>)
    requires Decodable(d)
    ensures |r| == |Lines(d)|
    ensures forall i :: 0 <= i < |r| ==> r[i] == Lines(d)[i].start
  {
    var ls := Lines(d);
    seq(|ls|, i requires 0 <= i < |ls| => ls[i].start)
  }

  /** One line of an iteration: it obeys the rule, and the scan continues at its end. */
  lemma TracedAt(d: Decoder, i: nat)
    requires Decodable(d) && d.current == 0 && |d.table.bitmap| != 0 && i < d.total
    ensures Rule(d.table, i, Cursors(d)[i], Starts(d)[i], Cursors(d)[i + 1])
    ensures Cursors(d)[i + 1].byte == Lines(d)[i].end
  {
    var e, e' := Run(d, i), Run(d, i + 1);
    assert e.current == i && e.table == d.table by { RunFacts(d, i); }
    assert Next(e).Yield? && e' == Next(e).next by { RunStep(d, i); }
    assert Lines(d)[i] == Next(e).line by { LineAt(d, i); }
    StepRule(e);
  }

  /** A fresh iteration over a non-empty bitmap is a trace that follows the rule. */
  lemma Traced(d: Decoder)
    requires Decodable(d) && d.current == 0 && |d.table.bitmap| != 0
    ensures Follows(d.table, Cursors(d), Starts(d))
  {
    forall i | 0 <= i < |Starts(d)|
      ensures Rule(d.table, i, Cursors(d)[i], Starts(d)[i], Cursors(d)[i + 1])
    {
      TracedAt(d, i);
    }
  }

  /**
    After line `i` of a fresh iteration the jump cursor stands at the base
    of `i`'s window plus the number of set bits up to and including `i`'s.
  */
  lemma JumpCursorClosedForm(d: Decoder, i: nat)
    requires Decodable(d) && d.current == 0 && |d.table.bitmap| != 0 && i < d.total
    ensures i / K < |d.table.bitmap| && i / K < |d.table.offsets|
    ensures Run(d, i + 1).jump == d.table.offsets[i / K].jumps + Rank(d.table.bitmap[i / K], i % K + 1)
  {
    var cs, starts := Cursors(d), Starts(d);
    assert Follows(d.table, cs, starts) by { Traced(d); }
    TraceJumpCursor(d.table, cs, starts, i);
    assert cs[i + 1].jump == Run(d, i + 1).jump;
  }

  /**
    Every line start of a fresh iteration over a non-empty bitmap, from the
    table alone: a line whose bit is set starts at its `ExceptionSlot` entry
    of `jumps`; a line whose bit is clear starts at its window's reset offset
    when it opens the window, and where the previous line ended otherwise.
  */
  lemma LineStartRule(d: Decoder, i: nat)
    requires Decodable(d) && d.current == 0 && |d.table.bitmap| != 0 && i < d.total
    ensures i / K < |d.table.bitmap| && i / K < |d.table.offsets|
    ensures Bit(d.table.bitmap[i / K], i % K) ==>
      ExceptionSlot(d.table, i) < |d.table.jumps| && Lines(d)[i].start == d.table.jumps[ExceptionSlot(d.table, i)]
    ensures !Bit(d.table.bitmap[i / K], i % K) && i % K == 0 ==>
      Lines(d)[i].start == d.table.offsets[i / K].bytes
    ensures !Bit(d.table.bitmap[i / K], i % K) && i % K != 0 ==>
      Lines(d)[i].start == Lines(d)[i - 1].end
  {
    var cs, starts := Cursors(d), Starts(d);
    assert Follows(d.table, cs, starts) by { Traced(d); }
    TraceLineStart(d.table, cs, starts, i);
    assert starts[i] == Lines(d)[i].start;
    if i > 0 {
      assert cs[i].byte == Lines(d)[i - 1].end by { TracedAt(d, i - 1); }
    }
  }

  /** A set bit at `m` counts towards every later rank of the word. */
  lemma {:induction false} RankGrows(w: bv64, m: nat, m': nat)
    requires m < m' <= K && Bit(w, m)
    ensures Rank(w, m) < Rank(w, m')
    decreases m'
  {
    if m' - 1 > m {
      RankGrows(w, m, m' - 1);
    }
  }

  /**
    Within one window the exception lines read strictly increasing `jumps`
    slots, so no slot is read twice.
  */
  lemma JumpsConsumedInOrder(t: Chronology, i: nat, j: nat)
    requires i < j && i / K == j / K && j / K < |t.bitmap| && j / K < |t.offsets|
    requires Bit(t.bitmap[i / K], i % K)
    ensures ExceptionSlot(t, i) < ExceptionSlot(t, j)
  {
    RankGrows(t.bitmap[i / K], i % K, j % K);
  }
}

=== FILE: decoder_safety.dfy ===
/**
  When a block's correction table fits its buffer and its line count, the
  decoder never indexes out of bounds: it yields all of the block's lines.
*/
module DecoderSafety {
  import opened Basics
  import opened SourceIndex
  import opened BlockLines
  import opened DecoderLemmas

  /** Number of bitmap windows the first `total` lines span. */
  function Windows(total: nat): (r: nat)
    ensures forall i :: 0 <= i < total ==> i / K < r
  {
    (total + K - 1) / K
  }

  /** How many of the first `total` lines fall into window `n`. */
  function WindowLines(n: nat, total: nat): (r: nat)
    requires n < Windows(total)
    ensures 0 < r <= K && n * K + r <= total
    ensures forall i :: n * K <= i < total && i / K == n ==> i % K < r
  {
    if total - n * K < K then total - n * K else K
  }

  /**
    The table lookups of all `total` lines stay in bounds and lead into a
    buffer of `size` bytes: every window in use has its word and reset
    point, the reset offsets and the `jumps` entries point into the buffer,
    and each window's exception lines find their slots in `jumps`.
  */
  predicate TableFits(t: Chronology, size: nat, total: nat)
  {
    |t.bitmap| == 0 ||
    (
      && Windows(total) <= |t.bitmap|
      && Windows(total) <= |t.offsets|
      && (forall n :: 0 <= n < Windows(total) ==> t.offsets[n].bytes <= size)
      && (forall n :: 0 <= n < Windows(total) ==> t.offsets[n].jumps + Rank(t.bitmap[n], WindowLines(n, total)) <= |t.jumps|)
      && (forall j :: 0 <= j < |t.jumps| ==> t.jumps[j] <= size)
    )
  }

  /**
    A state that the iteration of a fitting table reaches: the scan offset
    is inside the buffer and, within a window, the jump cursor counts the
    window's exception lines so far.
  */
  predicate OnTrack(d: Decoder)
  {
    && d.current <= d.total
    && d.byte <= |d.buf|
    && (|d.table.bitmap| != 0 && d.current % K != 0 ==>
          && d.current / K < |d.table.bitmap| && d.current / K < |d.table.offsets|
          && d.jump == d.table.offsets[d.current / K].jumps + Rank(d.table.bitmap[d.current / K], d.current % K))
  }

  /** Ranks grow with the prefix they count. */
  lemma {:induction false} RankMonotone(w: bv64, m: nat, m': nat)
    requires m <= m' <= K
    ensures Rank(w, m) <= Rank(w, m')
    decreases m'
  {
    if m < m' {
      RankMonotone(w, m, m' - 1);
    }
  }

  /** Where line `current` of a fitting table starts, and that it is in the buffer. */
  lemma FitLocate(d: Decoder)
    requires TableFits(d.table, |d.buf|, d.total) && OnTrack(d) && d.current < d.total
    requires |d.table.bitmap| != 0
    ensures CanLocate(d.table, d.current, d.jump)
    ensures var t, n, m := d.table, d.current / K, d.current % K;
      var c := Locate(t, d.current, Cursor(d.byte, d.jump));
      c.byte <= |d.buf| && c.jump == t.offsets[n].jumps + Rank(t.bitmap[n], m + 1)
  {
    var t, n, m := d.table, d.current / K, d.current % K;
    var w := t.bitmap[n];
    var fill := WindowLines(n, d.total);
    assert m < fill;
    RankMonotone(w, m + 1, fill);
    var base := if m == 0 then Cursor(t.offsets[n].bytes, t.offsets[n].jumps) else Cursor(d.byte, d.jump);
    assert base.jump == t.offsets[n].jumps + Rank(w, m);
    assert base.byte <= |d.buf|;
  }

  /** From a reached state with lines due, `next` yields a line and reaches the next such state. */
  lemma FitStep(d: Decoder)
    requires TableFits(d.table, |d.buf|, d.total) && OnTrack(d) && d.current < d.total
    ensures Next(d).Yield? && OnTrack(Next(d).next)
  {
    if |d.table.bitmap| != 0 {
      FitLocate(d);
      var i := d.current + 1;
      if i % K != 0 {
        WindowArith(i);
      }
    }
  }

  lemma {:induction false} FitDecodable(d: Decoder)
    requires TableFits(d.table, |d.buf|, d.total) && OnTrack(d)
    ensures Decodable(d)
    decreases d.total - d.current
  {
    if d.current < d.total {
      FitStep(d);
      FitDecodable(Next(d).next);
    }
  }

  /**
    A fresh decoder over a fitting table never panics: it yields exactly
    `total` lines, each a range of the buffer, and then `None`.
  */
  lemma FittingTableDecodes(buf: seq<byte>, t: Chronology, total: nat)
    requires TableFits(t, |buf|, total)
    ensures Decodable(Decoder(buf, t, total, 0, 0, 0))
    ensures |Lines(Decoder(buf, t, total, 0, 0, 0))| == total
    ensures Next(Run(Decoder(buf, t, total, 0, 0, 0), total)).Done?
  {
    var d := Decoder(buf, t, total, 0, 0, 0);
    FitDecodable(d);
    ExhaustedAfterTotal(d);
  }
}

=== FILE: errors.dfy ===
/** The error kinds the input layer raises, and the identity of an input. */
module Errors {

  /** Where an input comes from: standard input or a file path. */
  datatype InputReference = Stdin | File(path: string)

  /** Display form of an input used in diagnostics, without the terminal colouring. */
  function Describe(r: InputReference): (s: string)
    ensures r.Stdin? ==> s == "<stdin>"
    ensures r.File? ==> s == "file '" + r.path + "'"
  {
    match r
    case Stdin => "<stdin>"
    case File(path) => "file '" + path + "'"
  }

  /** An `io::Error`, reduced to its message. */
  datatype IoError = IoError(message: string)

  /** The application error cases this layer can produce or propagate. */
  datatype Error =
    | Io(cause: IoError)
    | UnsupportedFormatForIndexing(path: string, format: string)
    | TryFromInt
    | InvalidIndexHeader
    | InconsistentIndex(details: string)
}

=== FILE: indexed_input.dfy ===
/**
  Opening an input for indexing: the `.gz` refusal, the seek probe that
  selects the sequential strategy, and the direct strategy otherwise. The
  indexer and the replay buffer are collaborators; their outcomes are
  parameters.
*/
module IndexedInputs {
  import opened Basics
  import opened Errors
  import opened SourceIndex

  // --- file name and extension of a Unix path

  /** `s` cut at every `sep`; there is always at least one piece. */
  function SplitAt(s: string, sep: char): (r: seq<string>)
    ensures |r| > 0
  {
    if s == [] then [[]]
    else
      var rest := SplitAt(s[1..], sep);
      if s[0] == sep then [[]] + rest else [[s[0]] + rest[0]] + rest[1..]
  }

  /** A string without the separator is one piece. */
  lemma {:induction false} SplitAtNone(s: string, sep: char)
    requires sep !in s
    ensures SplitAt(s, sep) == [s]
  {
    if s != [] {
      SplitAtNone(s[1..], sep);
      assert [s[0]] + s[1..] == s;
    }
  }

  /** The first piece ends at the first separator. */
  lemma {:induction false} SplitAtFirst(a: string, sep: char, b: string)
    requires sep !in a
    ensures SplitAt(a + [sep] + b, sep) == [a] + SplitAt(b, sep)
  {
    if a == [] {
      assert ([] + [sep] + b)[1..] == b;
    } else {
      SplitAtFirst(a[1..], sep, b);
      assert (a + [sep] + b)[1..] == a[1..] + [sep] + b;
      assert [a[0]] + a[1..] == a;
    }
  }

  /**
    The named components of a path: repeated separators, a trailing
    separator and `.` segments do not produce components.
  */
  function Components(segments: seq<string>): (r: seq<string>)
    ensures forall i :: 0 <= i < |r| ==> r[i] != "" && r[i] != "."
  {
    if segments == [] then []
    else
      var rest := Components(segments[1..]);
      if segments[0] == "" || segments[0] == "." then rest else [segments[0]] + rest
  }

  /** `Path::file_name`: the last component, unless the path ends in `..` or has none. */
  function FileName(path: string): (r: Option<string>)
  {
    var cs := Components(SplitAt(path, '/'));
    if cs == [] || cs[|cs| - 1] == ".." then None else Some(cs[|cs| - 1])
  }

  /** Position of the last `.` in `name`. */
  function LastDot(name: string): (r: Option<nat>)
    ensures r.Some? ==> r.value < |name| && name[r.value] == '.'
    ensures r.Some? ==> forall j :: r.value < j < |name| ==> name[j] != '.'
    ensures r.None? <==> '.' !in name
  {
    if name == [] then None
    else if name[|name| - 1] == '.' then Some(|name| - 1)
    else
      assert name == name[..|name| - 1] + [name[|name| - 1]];
      LastDot(name[..|name| - 1])
  }

  /**
    `Path::extension`: what follows the last `.` of the file name, except
    when that dot is the name's first character or the name has no dot.
  */
  function Extension(path: string): (r: Option<string>)
  {
    match FileName(path)
    case None => None
    case Some(name) =>
      match LastDot(name)
      case None => None
      case Some(p) => if p == 0 then None else Some(name[p + 1..])
  }

  /** A file name that ends in `.gz` after a non-empty stem. */
  predicate GzipNamed(path: string)
  {
    FileName(path).Some? && |FileName(path).value| > 3 && FileName(path).value[|FileName(path).value| - 3..] == ".gz"
  }

  /** The extension test of `open_stream` holds exactly for file names `<stem>.gz`. */
  lemma GzipExtensionIffSuffix(path: string)
    ensures Extension(path) == Some("gz") <==> GzipNamed(path)
  {
    if FileName(path).Some? {
      var name := FileName(path).value;
      var n := |name|;
      if Extension(path) == Some("gz") {
        var p := LastDot(name).value;
        assert name[p + 1..] == "gz";
        assert n == p + 3;
        assert name[n - 3..] == [name[p], name[p + 1], name[p + 2]];
      }
      if GzipNamed(path) {
        assert name[n - 3] == '.' && name[n - 2] == 'g' && name[n - 1] == 'z';
        assert '.' in name;
        var p := LastDot(name).value;
        assert p == n - 3;
        assert name[p + 1..] == "gz";
      }
    }
  }

  /** The file name of `logs/.gz` is `.gz`. */
  lemma HiddenGzFileName()
    ensures FileName("logs/.gz") == Some(".gz")
  {
    SplitAtNone(".gz", '/');
    SplitAtFirst("logs", '/', ".gz");
    assert "logs/.gz" == "logs" + ['/'] + ".gz";
    assert Components(["logs", ".gz"]) == ["logs", ".gz"];
  }

  /** A hidden file named `.gz` has no extension and so is not refused. */
  lemma HiddenGzHasNoExtension()
    ensures Extension("logs/.gz") == None
  {
    HiddenGzFileName();
    assert LastDot(".gz") == Some(0);
  }

  /** The comparison is case-sensitive: `.GZ` is an extension, but not `gz`. */
  lemma UpperCaseGz()
    ensures Extension("app.GZ") == Some("GZ")
  {
    assert FileName("app.GZ") == Some("app.GZ") by {
      SplitAtNone("app.GZ", '/');
    }
    assert LastDot("app.GZ") == Some(3);
  }

  // --- strategy

  /** How an input gets its index and its block data source. */
  datatype Strategy =
    | Direct      // seek within the file; the index comes from the indexer by path
    | Sequential  // index in one forward pass while recording the bytes for replay

  /**
    The decision `open_stream` takes before calling the indexer: a gzip file
    name is refused, a failing seek probe selects the sequential strategy,
    and anything else is indexed directly.
  */
  function ChooseStrategy(path: string, seekable: bool): (r: Result<Strategy, Error>)
    ensures r.Err? <==> GzipNamed(path)
    ensures r.Err? ==> r.error == UnsupportedFormatForIndexing(path, "gzip")
    ensures r.Ok? ==> (r.value == Sequential <==> !seekable)
  {
    GzipExtensionIffSuffix(path);
    if Extension(path) == Some("gz") then Err(UnsupportedFormatForIndexing(path, "gzip"))
    else if !seekable then Ok(Sequential)
    else Ok(Direct)
  }

  /** Where the bytes of the blocks are read from once the input is indexed. */
  datatype Store =
    | SharedFile(path: string)   // the opened file, behind a lock
    | Replay(bytes: seq<byte>)   // the bytes recorded while indexing

  datatype IndexedInput = IndexedInput(reference: InputReference, store: Store, index: Index)

  /**
    `open_sequential`: `recorded` is what the indexer's streaming pass over
    the tee returned, the index and every byte it read, or its error.
  */
  function OpenSequential(reference: InputReference, recorded: Result<(Index, seq<byte>), Error>): (r: Result<IndexedInput, Error>)
    ensures recorded.Err? ==> r == Err(recorded.error)
    ensures recorded.Ok? ==> r.Ok? && r.value.reference == reference
    ensures recorded.Ok? ==> r.value.index == recorded.value.0 && r.value.store == Replay(recorded.value.1)
  {
    match recorded
    case Err(e) => Err(e)
    case Ok((index, bytes)) => Ok(IndexedInput(reference, Replay(bytes), index))
  }

  /**
    `open_stream`: the strategy decides which collaborator outcome is used;
    `direct` is the indexer's answer for the path, `recorded` that of the
    streaming pass. A refused gzip path consults neither.
  */
  function OpenStream(path: string, seekable: bool, direct: Result<Index, Error>, recorded: Result<(Index, seq<byte>), Error>): (r: Result<IndexedInput, Error>)
    ensures GzipNamed(path) ==> r == Err(UnsupportedFormatForIndexing(path, "gzip"))
    ensures !GzipNamed(path) && !seekable ==> r == OpenSequential(File(path), recorded)
    ensures !GzipNamed(path) && seekable && direct.Err? ==> r == Err(direct.error)
    ensures !GzipNamed(path) && seekable && direct.Ok? ==> r == Ok(IndexedInput(File(path), SharedFile(path), direct.value))
  {
    match ChooseStrategy(path, seekable)
    case Err(e) => Err(e)
    case Ok(Sequential) => OpenSequential(File(path), recorded)
    case Ok(Direct) =>
      match direct
      case Err(e) => Err(e)
      case Ok(index) => Ok(IndexedInput(File(path), SharedFile(path), index))
  }

  /**
    `InputHolder::index`: standard input is always indexed sequentially; a
    file is opened first unless the holder already holds its stream, and a
    failure to open it is reported with the input's description.
  */
  function IndexInput(
    reference: InputReference, held: bool, openResult: Result<(), IoError>,
    seekable: bool, direct: Result<Index, Error>, recorded: Result<(Index, seq<byte>), Error>
  ): (r: Result<IndexedInput, Error>)
    ensures reference.Stdin? ==> r == OpenSequential(Stdin, recorded)
    ensures reference.File? && (held || openResult.Ok?) ==> r == OpenStream(reference.path, seekable, direct, recorded)
    ensures reference.File? && !held && openResult.Err? ==>
      r == Err(Io(IoError("failed to open " + Describe(reference) + ": " + openResult.error.message)))
    ensures r.Ok? ==> r.value.reference == reference
  {
    match reference
    case Stdin => OpenSequential(Stdin, recorded)
    case File(path) =>
      if !held && openResult.Err? then Err(Io(IoError("failed to open " + Describe(reference) + ": " + openResult.error.message)))
      else OpenStream(path, seekable, direct, recorded)
  }

  /**
    Whatever the path, the seek probe and the collaborators' answers: an
    indexed input replays the recorded bytes exactly when it is standard
    input or a file that cannot seek, and otherwise reads its own file with
    the indexer's index; and every failure is one of the four the operation
    can meet.
  */
  lemma IndexInputOutcome(
    reference: InputReference, held: bool, openResult: Result<(), IoError>,
    seekable: bool, direct: Result<Index, Error>, recorded: Result<(Index, seq<byte>), Error>)
    ensures var r := IndexInput(reference, held, openResult, seekable, direct, recorded);
      && (r.Ok? ==> (r.value.store.Replay? <==> reference.Stdin? || !seekable))
      && (r.Ok? && r.value.store.Replay? ==> recorded.Ok? && r.value.store.bytes == recorded.value.1 && r.value.index == recorded.value.0)
      && (r.Ok? && r.value.store.SharedFile? ==> reference.File? && r.value.store.path == reference.path && direct == Ok(r.value.index))
      && (r.Err? ==>
            || (reference.File? && !held && openResult.Err? && r.error.Io?)
            || (reference.File? && GzipNamed(reference.path) && r.error == UnsupportedFormatForIndexing(reference.path, "gzip"))
            || (direct.Err? && r.error == direct.error)
            || (recorded.Err? && r.error == recorded.error))
  {
  }
}

=== FILE: level.dfy ===
/**
  Log levels, their order, and the relaxed parser that accepts short
  aliases in any ASCII case before falling back to the level names.
*/
module Levels {
  import opened Basics

  /** Log level, declared from most to least severe. */
  datatype Level = Error | Warning | Info | Debug

  /** Position in the declaration; the derived `Ord` compares it. */
  function Ordinal(l: Level): (r: nat)
  {
    match l
    case Error => 0
    case Warning => 1
    case Info => 2
    case Debug => 3
  }

  predicate Less(a: Level, b: Level)
  {
    Ordinal(a) < Ordinal(b)
  }

  /** Error < Warning < Info < Debug, and `Less` is a strict total order. */
  lemma LevelOrder()
    ensures Less(Error, Warning) && Less(Warning, Info) && Less(Info, Debug)
    ensures forall a: Level :: !Less(a, a)
    ensures forall a: Level, b: Level, c: Level :: Less(a, b) && Less(b, c) ==> Less(a, c)
    ensures forall a: Level, b: Level :: a != b ==> Less(a, b) || Less(b, a)
  {
  }

  /** A level that came from the relaxed parser. */
  datatype RelaxedLevel = RelaxedLevel(level: Level)

  /** `Into<Level>`. */
  function Into(r: RelaxedLevel): (l: Level)
  {
    r.level
  }

  /** `Deref`. */
  function Deref(r: RelaxedLevel): (l: Level)
  {
    r.level
  }

  /** The derived order of the wrapper compares the wrapped levels. */
  predicate RelaxedLess(a: RelaxedLevel, b: RelaxedLevel)
  {
    Less(a.level, b.level)
  }

  /** Wrapping and unwrapping gives the level back, and keeps the order. */
  lemma RelaxedLevelTransparent(l: Level, m: Level)
    ensures Into(RelaxedLevel(l)) == l && Deref(RelaxedLevel(l)) == l
    ensures RelaxedLess(RelaxedLevel(l), RelaxedLevel(m)) <==> Less(l, m)
  {
  }

  // --- case-insensitive comparison

  function AsciiLower(c: char): (r: char)
  {
    if 'A' <= c <= 'Z' then (c as int + 32) as char else c
  }

  /** `eq_ignore_ascii_case`: equal after mapping `A`–`Z` to `a`–`z`. */
  predicate EqIgnoreAsciiCase(a: string, b: string)
  {
    |a| == |b| && forall i :: 0 <= i < |a| ==> AsciiLower(a[i]) == AsciiLower(b[i])
  }

  /** `value` equals one of `names` up to ASCII case. */
  predicate MatchesAny(value: string, names: seq<string>)
  {
    exists j :: 0 <= j < |names| && EqIgnoreAsciiCase(value, names[j])
  }

  // --- alias table

  /** The aliases of one level. */
  function Aliases(l: Level): (r: seq<string>)
  {
    match l
    case Error => ["err", "e"]
    case Warning => ["warn", "wrn", "w"]
    case Info => ["inf", "i"]
    case Debug => ["dbg", "d"]
  }

  /** `alternate_values`: the aliases of each level, in scan order. */
  function AlternateValues(): (r: seq<(Level, seq<string>)>)
  {
    [(Error, Aliases(Error)), (Warning, Aliases(Warning)), (Info, Aliases(Info)), (Debug, Aliases(Debug))]
  }

  /** `values.iter().any(...)`: whether `value` matches one of `names`. */
  function AnyMatches(value: string, names: seq<string>): (r: bool)
    ensures r <==> MatchesAny(value, names)
  {
    if names == [] then false
    else if EqIgnoreAsciiCase(value, names[0]) then true
    else
      assert forall j :: 1 <= j < |names| ==> names[j] == names[1..][j - 1];
      AnyMatches(value, names[1..])
  }

  /** The scan over the table: the level of the first entry one of whose aliases matches. */
  function FindAlias(table: seq<(Level, seq<string>)>, value: string): (r: Option<Level>)
    ensures r.None? <==> forall i :: 0 <= i < |table| ==> !MatchesAny(value, table[i].1)
    ensures r.Some? ==> exists i :: 0 <= i < |table| && table[i].0 == r.value && MatchesAny(value, table[i].1)
  {
    if table == [] then None
    else if AnyMatches(value, table[0].1) then Some(table[0].0)
    else
      var r := FindAlias(table[1..], value);
      assert forall i :: 1 <= i < |table| ==> table[i] == table[1..][i - 1];
      r
  }

  /**
    `parse_ref`: an alias match decides; otherwise the level-name parser,
    an external collaborator here passed as `byName`, decides.
  */
  function ParseRef<E>(value: string, byName: string -> Result<Level, E>): (r: Result<RelaxedLevel, E>)
    ensures FindAlias(AlternateValues(), value).Some? ==> r == Ok(RelaxedLevel(FindAlias(AlternateValues(), value).value))
    ensures FindAlias(AlternateValues(), value).None? ==>
      (byName(value).Ok? ==> r == Ok(RelaxedLevel(byName(value).value))) &&
      (byName(value).Err? ==> r == Err(byName(value).error))
  {
    match FindAlias(AlternateValues(), value)
    case Some(level) => Ok(RelaxedLevel(level))
    case None =>
      match byName(value)
      case Ok(level) => Ok(RelaxedLevel(level))
      case Err(e) => Err(e)
  }

  // --- properties of the table

  lemma EqIgnoreAsciiCaseTransitive(a: string, b: string, c: string)
    requires EqIgnoreAsciiCase(a, b) && EqIgnoreAsciiCase(b, c)
    ensures EqIgnoreAsciiCase(a, c)
  {
  }

  lemma EqIgnoreAsciiCaseSymmetric(a: string, b: string)
    requires EqIgnoreAsciiCase(a, b)
    ensures EqIgnoreAsciiCase(b, a)
  {
  }

  /** The letter all of a level's aliases start with. */
  function Initial(l: Level): (r: char)
  {
    match l
    case Error => 'e'
    case Warning => 'w'
    case Info => 'i'
    case Debug => 'd'
  }

  /**
    Every alias is non-empty and starts with its level's letter, a lower-case
    letter that differs from level to level.
  */
  lemma AliasInitial(l: Level, i: nat)
    requires i < |Aliases(l)|
    ensures |Aliases(l)[i]| > 0 && Aliases(l)[i][0] == Initial(l)
  {
  }

  /** No two levels share an alias, whatever the case of the input. */
  lemma AliasesDisjoint(value: string, l: Level, m: Level)
    requires MatchesAny(value, Aliases(l)) && MatchesAny(value, Aliases(m))
    ensures l == m
  {
    var i :| 0 <= i < |Aliases(l)| && EqIgnoreAsciiCase(value, Aliases(l)[i]);
    var j :| 0 <= j < |Aliases(m)| && EqIgnoreAsciiCase(value, Aliases(m)[j]);
    AliasInitial(l, i);
    AliasInitial(m, j);
    assert AsciiLower(value[0]) == AsciiLower(Initial(l)) == Initial(l);
    assert AsciiLower(value[0]) == AsciiLower(Initial(m)) == Initial(m);
  }

  /**
    The alias scan finds level `l` exactly when the input matches one of
    `l`'s aliases, so the order of the table does not matter.
  */
  lemma AliasLookup(value: string, l: Level)
    ensures FindAlias(AlternateValues(), value) == Some(l) <==> MatchesAny(value, Aliases(l))
  {
    var table := AlternateValues();
    assert forall i :: 0 <= i < |table| ==> table[i].1 == Aliases(table[i].0);
    if FindAlias(table, value) == Some(l) {
      var i :| 0 <= i < |table| && table[i].0 == l && MatchesAny(value, table[i].1);
    }
    if MatchesAny(value, Aliases(l)) {
      var k := Ordinal(l);
      assert table[k].0 == l;
      assert MatchesAny(value, table[k].1);
      var r := FindAlias(table, value);
      var i :| 0 <= i < |table| && table[i].0 == r.value && MatchesAny(value, table[i].1);
      AliasesDisjoint(value, l, r.value);
    }
  }

  /**
    Every alias of the table, written in any ASCII case, parses to its
    level, whatever the level-name parser would say.
  */
  lemma AliasAccepted<E>(value: string, l: Level, j: nat, byName: string -> Result<Level, E>)
    requires j < |Aliases(l)| && EqIgnoreAsciiCase(value, Aliases(l)[j])
    ensures ParseRef(value, byName) == Ok(RelaxedLevel(l))
  {
    AliasLookup(value, l);
  }

  /** Input that matches no alias of any level is left to the level-name parser. */
  lemma NonAliasFallsThrough<E>(value: string, byName: string -> Result<Level, E>)
    requires forall l: Level :: !MatchesAny(value, Aliases(l))
    ensures byName(value).Ok? ==> ParseRef(value, byName) == Ok(RelaxedLevel(byName(value).value))
    ensures byName(value).Err? ==> ParseRef(value, byName) == Err(byName(value).error)
  {
    var r := FindAlias(AlternateValues(), value);
    if r.Some? {
      AliasLookup(value, r.value);
    }
  }

  /** Examples: `WARN` and `Dbg` are accepted. */
  lemma AliasExamples<E>(byName: string -> Result<Level, E>)
    ensures ParseRef("WARN", byName) == Ok(RelaxedLevel(Warning))
    ensures ParseRef("Dbg", byName) == Ok(RelaxedLevel(Debug))
  {
    assert Aliases(Warning)[0] == "warn";
    assert EqIgnoreAsciiCase("WARN", "warn");
    AliasAccepted("WARN", Warning, 0, byName);
    assert Aliases(Debug)[0] == "dbg";
    assert EqIgnoreAsciiCase("Dbg", "dbg");
    AliasAccepted("Dbg", Debug, 0, byName);
  }

  /** Inputs equal up to ASCII case parse to the same alias. */
  lemma AliasCaseInsensitive(v: string, w: string)
    requires EqIgnoreAsciiCase(v, w)
    ensures FindAlias(AlternateValues(), v) == FindAlias(AlternateValues(), w)
  {
    forall a: string | EqIgnoreAsciiCase(v, a)
      ensures EqIgnoreAsciiCase(w, a)
    {
      EqIgnoreAsciiCaseSymmetric(v, w);
      EqIgnoreAsciiCaseTransitive(w, v, a);
    }
    forall a: string | EqIgnoreAsciiCase(w, a)
      ensures EqIgnoreAsciiCase(v, a)
    {
      EqIgnoreAsciiCaseTransitive(v, w, a);
    }
    forall l: Level
      ensures MatchesAny(v, Aliases(l)) <==> MatchesAny(w, Aliases(l))
    {
    }
    var fv, fw := FindAlias(AlternateValues(), v), FindAlias(AlternateValues(), w);
    if fv.Some? {
      AliasLookup(v, fv.value);
      AliasLookup(w, fv.value);
    } else if fw.Some? {
      AliasLookup(v, fw.value);
      AliasLookup(w, fw.value);
    }
  }
}

=== FILE: line_split.dfy ===
/**
  Line extents in a byte buffer. `LineLen` is the newline scan the decoder
  performs for every line; `SplitLines` is an independent, byte-by-byte
  definition of splitting a buffer into newline-terminated lines, used as the
  reference the sequential decoder is proved against.
*/
module LineSplit {
  import opened Basics

  /**
    Length of the first line of `s`: one past the first newline, or all of
    `s` when it holds no newline.
  */
  function LineLen(s: seq<byte>): (l: nat)
    ensures l <= |s|
  {
    if s == [] then 0
    else if s[0] == NL then 1
    else 1 + LineLen(s[1..])
  }

  /** `LineLen` stops right after the first newline, or at the end when there is none. */
  lemma {:induction false} LineLenSpec(s: seq<byte>)
    ensures var l := LineLen(s);
      && (forall j :: 0 <= j < l - 1 ==> s[j] != NL)
      && (NL in s ==> 0 < l && s[l - 1] == NL)
      && (NL !in s ==> l == |s|)
    decreases |s|
  {
    if s != [] && s[0] != NL {
      LineLenSpec(s[1..]);
      assert s == [s[0]] + s[1..];
    }
  }

  /**
    The lines of `s`, built one byte at a time: a byte joins the line that
    follows it unless it is a newline. Every line but the last ends with a
    newline; the last ends with one too when `s` does.
  */
  function SplitLines(s: seq<byte>): (r: seq<seq<byte>>)
  {
    if s == [] then []
    else
      var rest := SplitLines(s[1..]);
      if s[0] == NL || rest == [] then [[s[0]]] + rest
      else [[s[0]] + rest[0]] + rest[1..]
  }

  /** Only the empty buffer has no lines. */
  lemma SplitLinesEmpty(s: seq<byte>)
    ensures SplitLines(s) == [] <==> s == []
  {
  }

  /**
    Splitting takes off exactly the first line as `LineLen` measures it and
    splits the remainder.
  */
  lemma {:induction false} SplitLinesHead(s: seq<byte>)
    requires s != []
    ensures SplitLines(s) == [s[..LineLen(s)]] + SplitLines(s[LineLen(s)..])
    decreases |s|
  {
    var t := s[1..];
    if s[0] == NL {
      assert s[..1] == [s[0]];
    } else if t == [] {
      assert LineLen(t) == 0;
      assert LineLen(s) == 1;
      assert SplitLines(t) == [];
      assert SplitLines(s) == [[s[0]]];
      assert s[..1] == [s[0]] && s[1..] == t;
    } else {
      SplitLinesHead(t);
      SplitLinesEmpty(t);
      var e := LineLen(t);
      assert LineLen(s) == 1 + e;
      assert s[..1 + e] == [s[0]] + t[..e];
      assert s[1 + e..] == t[e..];
    }
  }

  /** Splitting loses and duplicates no byte. */
  lemma {:induction false} SplitLinesConcat(s: seq<byte>)
    ensures Concat(SplitLines(s)) == s
    decreases |s|
  {
    if s != [] {
      SplitLinesHead(s);
      var l := LineLen(s);
      SplitLinesConcat(s[l..]);
      assert s == s[..l] + s[l..];
    }
  }

  /**
    Every line is non-empty, holds no newline except possibly as its last
    byte, and every line but the last does end with a newline.
  */
  lemma {:induction false} SplitLinesShape(s: seq<byte>)
    ensures forall i :: 0 <= i < |SplitLines(s)| ==> |SplitLines(s)[i]| > 0
    ensures forall i, j :: 0 <= i < |SplitLines(s)| && 0 <= j < |SplitLines(s)[i]| - 1 ==> SplitLines(s)[i][j] != NL
    ensures forall i :: 0 <= i < |SplitLines(s)| - 1 ==> SplitLines(s)[i][|SplitLines(s)[i]| - 1] == NL
    decreases |s|
  {
    if s != [] {
      SplitLinesHead(s);
      var l := LineLen(s);
      LineLenSpec(s);
      SplitLinesShape(s[l..]);
      SplitLinesEmpty(s[l..]);
      var r := SplitLines(s);
      assert r[0] == s[..l];
      if l < |s| {
        assert s[l - 1] == NL;
      }
      forall i | 1 <= i < |r|
        ensures r[i] == SplitLines(s[l..])[i - 1]
      {
      }
    }
  }
}

=== FILE: source_index.dfy ===
/**
  The shape of a block index as the input layer consumes it. The index itself
  is produced elsewhere; only its fields are modelled here.
*/
module SourceIndex {

  /** Reset point of one bitmap window: scan byte offset and index into `jumps`. */
  datatype Offsets = Offsets(bytes: nat, jumps: nat)

  /**
    Chronological correction table of a block: one bit per line packed into
    64-bit words, one reset point per word, and the absolute start offsets
    of the lines that are out of order.
  */
  datatype Chronology = Chronology(bitmap: seq<bv64>, offsets: seq<Offsets>, jumps: seq<nat>)

  /** Smallest and largest timestamp of a block, compared as a pair. */
  type TimestampRange = (int, int)

  datatype Stat = Stat(linesValid: nat, linesInvalid: nat, tsMinMax: TimestampRange)

  datatype SourceBlock = SourceBlock(offset: nat, size: nat, stat: Stat, chronology: Chronology)

  /** The blocks of one input, in file order. */
  datatype Index = Index(blocks: seq<SourceBlock>)
}

=== FILE: stable_sort.dfy ===
/**
  Stable sort of block positions by their `(ts_min, ts_max)` key, the order
  `sort_by_key` establishes. The key of position `i` is `keys[i]`.
*/
module StableSort {
  import opened SourceIndex

  /** Lexicographic order of timestamp pairs, as the derived `Ord` of a tuple. */
  predicate KeyLe(a: TimestampRange, b: TimestampRange)
  {
    a.0 < b.0 || (a.0 == b.0 && a.1 <= b.1)
  }

  /** Every position has a key. */
  predicate InRange(s: seq<nat>, keys: seq<TimestampRange>)
  {
    forall i :: 0 <= i < |s| ==> s[i] < |keys|
  }

  predicate SortedBy(s: seq<nat>, keys: seq<TimestampRange>)
    requires InRange(s, keys)
  {
    forall i, j :: 0 <= i < j < |s| ==> KeyLe(keys[s[i]], keys[s[j]])
  }

  /** The positions of `s` whose key is `k`, in their order in `s`. */
  function Filter(s: seq<nat>, keys: seq<TimestampRange>, k: TimestampRange): (r: seq<nat>)
    requires InRange(s, keys)
  {
    if s == [] then []
    else (if keys[s[0]] == k then [s[0]] else []) + Filter(s[1..], keys, k)
  }

  /** Inserts `x` before the first element whose key is not below `x`'s. */
  function Insert(x: nat, s: seq<nat>, keys: seq<TimestampRange>): (r: seq<nat>)
    requires x < |keys| && InRange(s, keys)
    ensures InRange(r, keys)
    ensures multiset(r) == multiset(s) + multiset{x}
  {
    if s == [] || KeyLe(keys[x], keys[s[0]]) then
      [x] + s
    else
      assert s == [s[0]] + s[1..];
      [s[0]] + Insert(x, s[1..], keys)
  }

  /** Inserting into a sorted sequence keeps it sorted. */
  lemma {:induction false} InsertSorted(x: nat, s: seq<nat>, keys: seq<TimestampRange>)
    requires x < |keys| && InRange(s, keys) && SortedBy(s, keys)
    ensures SortedBy(Insert(x, s, keys), keys)
  {
    if s != [] && !KeyLe(keys[x], keys[s[0]]) {
      var rest := Insert(x, s[1..], keys);
      InsertSorted(x, s[1..], keys);
      assert s == [s[0]] + s[1..];
      forall j | 0 <= j < |rest|
        ensures KeyLe(keys[s[0]], keys[rest[j]])
      {
        assert rest[j] in multiset(rest);
        assert rest[j] == x || rest[j] in multiset(s[1..]);
        if rest[j] != x {
          var p :| 0 <= p < |s[1..]| && s[1..][p] == rest[j];
          assert s[p + 1] == rest[j];
        }
      }
      assert Insert(x, s, keys) == [s[0]] + rest;
    }
  }

  /**
    Insertion puts `x` first among the positions with its key: nothing with
    an equal key is skipped over.
  */
  lemma {:induction false} InsertFilter(x: nat, s: seq<nat>, keys: seq<TimestampRange>, k: TimestampRange)
    requires x < |keys| && InRange(s, keys)
    ensures Filter(Insert(x, s, keys), keys, k) == if keys[x] == k then [x] + Filter(s, keys, k) else Filter(s, keys, k)
  {
    if s != [] && !KeyLe(keys[x], keys[s[0]]) {
      var rest := Insert(x, s[1..], keys);
      InsertFilter(x, s[1..], keys, k);
      assert ([s[0]] + rest)[1..] == rest;
      assert keys[s[0]] != keys[x];
    } else {
      assert ([x] + s)[1..] == s;
    }
  }

  /**
    Insertion sort: a permutation of `s`, ordered by key, that keeps the
    relative order of positions with equal keys.
  */
  function SortByKey(s: seq<nat>, keys: seq<TimestampRange>): (r: seq<nat>)
    requires InRange(s, keys)
    ensures InRange(r, keys)
    ensures multiset(r) == multiset(s)
    ensures SortedBy(r, keys)
    ensures forall k :: Filter(r, keys, k) == Filter(s, keys, k)
  {
    if s == [] then []
    else
      assert s == [s[0]] + s[1..];
      var t := SortByKey(s[1..], keys);
      InsertSorted(s[0], t, keys);
      assert forall k :: Filter(Insert(s[0], t, keys), keys, k) == Filter(s, keys, k) by {
        forall k
          ensures Filter(Insert(s[0], t, keys), keys, k) == Filter(s, keys, k)
        {
          InsertFilter(s[0], t, keys, k);
        }
      }
      Insert(s[0], t, keys)
  }

  /** After sorting, a block with a strictly smaller key comes first. */
  lemma SortedPutsSmallerFirst(s: seq<nat>, keys: seq<TimestampRange>, i: nat, j: nat)
    requires InRange(s, keys) && SortedBy(s, keys)
    requires i < |s| && j < |s| && !KeyLe(keys[s[j]], keys[s[i]])
    ensures i < j
  {
  }
}
